=== FILE: README.md ===
# ClearMind logic, modelled in Dafny

ClearMind is a mental-health chat application: a React client that talks to
Google Gemini and an Express server with a coach endpoint and an export of
the mood history to a Snowflake warehouse. Most of it is UI and SDK glue.
This project models the deterministic logic inside it and proves what that
logic promises. The modules are:

- **Breathing** (`MindfulnessTools.jsx`): the breathing-exercise sequencer.
  - It runs four phases, and a hold of length zero is skipped.
  - Each phase dwells for its length in seconds.
  - A separate breath counter ticks once per `totalCycle`.
  - The session state machine covers start, stop, the single pending timeout and the interval.
  - It also covers the instruction and progress texts.
- **Chat** (`App.jsx`):
  - the keyword mood classifier;
  - the non-greedy `{…}` extraction and the fallback reply;
  - tip concatenation;
  - error classification;
  - the "placeholder then replace" message list;
  - the insight cadence, and the mood history the scheduled insight reads: the one from before the send, without the newest mood;
  - the daily check-in gate.
- **EmotionMap** (`EmotionMap.jsx`):
  - intensity and colour tables;
  - grouping by day (a partition) and the rounded average;
  - the seven-day timeline;
  - the distribution and the most common mood;
  - the five most recent entries.
- **Therapy** (`TherapyMode.jsx`): the guided four-prompt dialogue, closing and reopening the panel, and the breathing caption, both as the cycle it is meant to be and as the constant it is in the app.
- **InputBox**, **ApiKeyPrompt**, **Header**: the trim-based send and save guards, and the mood badge.
- **SnowflakeExport** (`snowflakeExport.js`):
  - request validation and the choice between mock and real export;
  - connection settings and credential precedence;
  - row mapping, the insert loop and the replies.
- **Server** (`server.js`): CORS origin parsing, the coach endpoint's defaulting, and the save defaults.
- **Moods**, **Text**, **Arith**, **Options**: shared support.
  - Moods holds the mood vocabulary.
  - Text models the JavaScript string operations used: `trim`, ASCII `toLowerCase`, `includes`, `indexOf`, `substring`, `split`, `join` and number rendering.
  - Arith holds `Math.round` of a non-negative quotient and the multiplication facts it needs.
  - Options holds optional values and promise outcomes.

Some things become parameters: the model's answer, `JSON.parse`, the database driver, the clock, and the locale rendering of dates.

A JavaScript value that is absent, `null` or falsy is modelled as the empty string wherever the code tests it with `||` or `if (x)`. Where a destructuring default applies, it fires only on `undefined`, so an `Option` is used instead.

Three facts about the breathing panel shape its model:

- The sequencer always enters inhale and exhale, whatever their length; only a hold of length zero is skipped.
- The breath count comes from an interval of `totalCycle` seconds that runs independently of the phase timeouts. `CounterInStepWithPhases` proves that the count and the phase passes agree whenever `totalCycle` equals the sum of the phase lengths, which holds for every catalogue exercise.
- No exercise is checked for having breathing time; every catalogue exercise has positive inhale and exhale.

The therapy panel keeps its state while hidden: closing it hides it without resetting the prompt index or the answers, so opening it again after a completed dialogue resumes on the last prompt (`ReopenedDialogueEndsAtOnce`).

## Model

| member | source | states |
|---|---|---|
| Breathing.Catalogue | client/src/components/MindfulnessTools.jsx:10-56 | five exercises; each one's `totalCycle` equals the sum of its four phase lengths, inhale and exhale are positive, ids are distinct |
| Breathing.Next | client/src/components/MindfulnessTools.jsx:96-134 | hold-in follows inhale iff its length is positive (else exhale); hold-out follows exhale iff positive (else inhale); hold-in always leads to exhale, hold-out to inhale |
| Breathing.PassMembership | client/src/components/MindfulnessTools.jsx:97-133 | a pass always holds inhale and exhale, starts at inhale, and holds each hold exactly when its length is positive |
| Breathing.PassIsPeriod | client/src/components/MindfulnessTools.jsx:96-134 | one pass of transitions from inhale enters exactly the pass's phases and comes back to inhale |
| Breathing.PassSeconds | client/src/components/MindfulnessTools.jsx:100-133 | the dwell times of one pass add up to inhale + holdIn + exhale + holdOut seconds |
| Breathing.RunSplit | client/src/components/MindfulnessTools.jsx:96-134 | a timeline of m+n entries is the first m followed by a timeline restarted at the phase and time where they end |
| Breathing.RunFollowsWalk | client/src/components/MindfulnessTools.jsx:96-134 | the phases of the timed run are the phases of the transition walk |
| Breathing.RunStaysInPass | client/src/components/MindfulnessTools.jsx:96-134 | from a phase of the pass only phases of the pass are ever entered |
| Breathing.ObservedIffInPass | client/src/components/MindfulnessTools.jsx:96-134 | a phase is ever seen only if it is in the pass, and every pass phase is seen once a full pass has run |
| Breathing.HoldInObservedIff | client/src/components/MindfulnessTools.jsx:100-123 | hold-in is observed in a session iff holdIn > 0; otherwise inhale goes straight to exhale |
| Breathing.HoldOutObservedIff | client/src/components/MindfulnessTools.jsx:109-130 | hold-out is observed iff holdOut > 0; otherwise exhale restarts the sequence at inhale |
| Breathing.BreathsAlwaysObserved | client/src/components/MindfulnessTools.jsx:97-123 | inhale and exhale are entered on every pass whatever their length |
| Breathing.FourSevenEightNeverRests | client/src/components/MindfulnessTools.jsx:33-38 | the 4-7-8 exercise never shows hold-out, however long it runs |
| Breathing.InhaleEveryCycle | client/src/components/MindfulnessTools.jsx:96-134 | the k-th pass begins at inhale exactly k cycle lengths (sum of phase lengths × 1000 ms) after the start |
| Breathing.IntervalMs | client/src/components/MindfulnessTools.jsx:87 | a positive `totalCycle` gives a counter interval of at least one second |
| Breathing.CounterTicksOncePerCycle | client/src/components/MindfulnessTools.jsx:90-92 | the breath count never decreases and rises by exactly one per `totalCycle` interval |
| Breathing.CounterInStepWithPhases | client/src/components/MindfulnessTools.jsx:87-133 | when `totalCycle` is the sum of the lengths, the counter reads k exactly when the k-th pass starts at inhale |
| Breathing.Initial | client/src/components/MindfulnessTools.jsx:5-8 | the panel starts not breathing, with no exercise, count 0, phase inhale, and no timer armed |
| Breathing.StepKeepsValid | client/src/components/MindfulnessTools.jsx:73-143 | every start, stop, timeout or interval event keeps "running iff an exercise is active, exactly then both timers are armed, the phase belongs to the pass", so at most one phase timeout is pending |
| Breathing.StepCounter | client/src/components/MindfulnessTools.jsx:73-92 | start resets the count to 0 at inhale; stop clears the flags and both timers; only the interval raises the count, by one, and nothing else lowers it |
| Breathing.NothingAfterStop | client/src/components/MindfulnessTools.jsx:79-82 | after a stop, no event other than a new start changes the state |
| Breathing.Instruction | client/src/components/MindfulnessTools.jsx:145-162 | with no active exercise the instruction is "Breathe..." |
| Breathing.InstructionNonEmptyIff | client/src/components/MindfulnessTools.jsx:150-158 | a phase's text is non-empty iff it is inhale or exhale or its hold is positive |
| Breathing.InstructionShowsDwell | client/src/components/MindfulnessTools.jsx:152-158 | every non-empty phase text ends with "(<length>s)" for that phase's length |
| Breathing.ProgressText | client/src/components/MindfulnessTools.jsx:243 | the praise message appears exactly from five counted cycles on |
| Breathing.PraiseFromFifthInterval | client/src/components/MindfulnessTools.jsx:87-92 | with the counter's interval, the praise shows exactly once five whole intervals (5 × totalCycle seconds) have elapsed |
| Chat.Categories | client/src/App.jsx:51-55 | five keyword families, none of them neutral |
| Chat.FirstMatchIsFirst | client/src/App.jsx:51-56 | the search yields the first family whose keyword occurs, and neutral iff none occurs |
| Chat.DetectMoodPriority | client/src/App.jsx:49-57 | `detectMood` answers the first of happy, calm, anxious, stressed, sad whose keyword is a substring of the lowered text, and neutral iff none is |
| Chat.UnhappyIsHappy | client/src/App.jsx:51 | substring matching classifies "unhappy" as happy |
| Chat.ClassifierIgnoresCase | client/src/App.jsx:50 | lowering the text first changes nothing |
| Chat.ExtractJson | client/src/App.jsx:163 | a result is a non-greedy brace match (first '{', first '}' after it); nothing is extracted iff no '{' is followed by a '}' |
| Chat.ExtractJsonFindsMatch | client/src/App.jsx:163 | whenever the non-greedy match exists it is exactly what is extracted |
| Chat.NestedObjectIsCutShort | client/src/App.jsx:163 | a nested object is cut at its first closing brace |
| Chat.InterpretAnswer | client/src/App.jsx:163-181 | the parsed object when extraction and parsing succeed, the fallback in every other case |
| Chat.FallbackShape | client/src/App.jsx:174-181 | the fallback's mood is `detectMood` of the user's message, it has no tip, and its reply is the trimmed model text or, when that is blank, the listening message |
| Chat.ShownReply | client/src/App.jsx:198-201 | the shown text starts with the reply (or "I'm here with you."), and ends with "\n\n💡 Tip: " + tip exactly when there is a tip |
| Chat.ShownMood | client/src/App.jsx:212 | the recorded mood is the answer's mood, or "neutral" when it is empty |
| Chat.ClassifyError | client/src/App.jsx:234-242 | error kinds in priority order: "Failed to fetch" is network, else "403" is a key problem, else "429" is a rate limit, else other |
| Chat.ErrorText | client/src/App.jsx:233-242 | the apology followed by the fixed hint of the kind, or by the raw message for other errors |
| Chat.ForbiddenMeansBadKey | client/src/App.jsx:150-153 | a 403 answer is reported as a key problem unless its body mentions a failed fetch |
| Chat.BeginSend | client/src/App.jsx:185-192 | an accepted message appends exactly the user's text and the placeholder, keeps the earlier messages, and turns loading on |
| Chat.FinishShape | client/src/App.jsx:198-251 | the answer or the error text overwrites only the placeholder, loading always ends, and only a success records the mood and history entry and counts the conversation |
| Chat.ReplaceLast | client/src/App.jsx:203-210 | the last message is overwritten, never appended to, and the rest is kept |
| Chat.SendMessageShape | client/src/App.jsx:184-255 | blank text or a busy chat changes nothing; otherwise the list grows by exactly two, loading ends, and only a successful answer records the mood and history and counts the conversation, scheduling insights iff the new count is a multiple of 5, on the history as it was before the send |
| Chat.InsightMoods | client/src/App.jsx:87-89 | nothing below three entries; otherwise the moods of the last min(10, n) entries, in order |
| Chat.MoodSummary | client/src/App.jsx:87-89 | no summary below three entries; otherwise it starts with the oldest summarised mood and ends with the newest entry's mood |
| Chat.InsightPrompt | client/src/App.jsx:89-92 | the prompt is the fixed lead, then the summary, and ends with the fixed request |
| Chat.GenerateInsights | client/src/App.jsx:86-111 | below three entries the insights stay; they change only to the model's answer to the prompt built from the mood summary |
| Chat.InsightChangesOnlyWithMoods | client/src/App.jsx:86-111 | changed insights mean there were at least three entries and the model answered the prompt listing their recent moods |
| Chat.ScheduledInsightReadsOldHistory | client/src/App.jsx:216-227 | while history and count grow together, the scheduled insight reads the history without the send's own entry, which has 4, 9, 14, ... entries, so the three-entry guard never stops it and the newest mood is missing from the summary |
| Chat.CheckForCheckIn | client/src/App.jsx:69-76 | the prompt is raised iff the hour is 9 or 20, the last check-in was not today, and no prompt is showing; raising records now as the last check-in |
| Chat.CheckInOncePerDay | client/src/App.jsx:69-76 | once raised and dismissed, the prompt is not raised again the same day |
| Moods.Known | client/src/components/EmotionMap.jsx:58-65 | the six known moods, distinct, in the table key order |
| Moods.ParseName | client/src/components/EmotionMap.jsx:20-27 | every mood's name is a table key mapping back to that mood |
| Arith.RoundIsNearest | client/src/components/EmotionMap.jsx:47 | `Math.round(num / den)` is within half a unit of the quotient, halves rounded up |
| Arith.RoundBetween | client/src/components/EmotionMap.jsx:47 | a quotient between two integers rounds to a value between them |
| EmotionMap.Intensity | client/src/components/EmotionMap.jsx:19-29 | every intensity lies in 10..100, and unknown moods score 50 |
| EmotionMap.IntensityFallsInTableOrder | client/src/components/EmotionMap.jsx:20-27 | happy, calm, neutral, anxious, stressed, sad have strictly falling intensities |
| EmotionMap.Color | client/src/components/EmotionMap.jsx:32-42 | an unknown mood is drawn in the neutral grey |
| EmotionMap.GreyMeansNeutralOrUnknown | client/src/components/EmotionMap.jsx:32-42 | a mood is grey iff it is neutral or unknown |
| EmotionMap.AverageMoodBounds | client/src/components/EmotionMap.jsx:45-48 | a day's average is the rounded mean intensity, between the day's smallest and largest intensity, hence in 10..100 |
| EmotionMap.Days | client/src/components/EmotionMap.jsx:51 | the day keys of the grouping, in insertion order |
| EmotionMap.FindDay | client/src/components/EmotionMap.jsx:10 | finds the group of a day, or reports that no group has that day |
| EmotionMap.AddToExistingDay | client/src/components/EmotionMap.jsx:10-13 | pushing onto an existing day's group keeps the partition |
| EmotionMap.AddNewDay | client/src/components/EmotionMap.jsx:10-13 | opening a group for a new day keeps the partition |
| EmotionMap.GroupsPartitionHistory | client/src/components/EmotionMap.jsx:6-16 | grouping is a partition: days distinct, each group is exactly its day's entries in original order and non-empty, every entry's day has a group |
| EmotionMap.SortDays | client/src/components/EmotionMap.jsx:51 | the sorted days are a permutation of the days |
| EmotionMap.SortDaysAscending | client/src/components/EmotionMap.jsx:51 | the sorted days are in ascending date order |
| EmotionMap.LastDays | client/src/components/EmotionMap.jsx:54 | `slice(-7)` is the suffix of length min(7, n) |
| EmotionMap.TimelineShowsLatestDays | client/src/components/EmotionMap.jsx:50-54 | at most seven days are shown, ascending, all of them days of the history, and no day left out is later than a day shown |
| EmotionMap.Bar | client/src/components/EmotionMap.jsx:101-117 | a bar's colour is the colour of the day's last entry, its height in 10..100, its label the entry count |
| EmotionMap.LastEntryColoursTheBar | client/src/components/EmotionMap.jsx:104 | two happy entries followed by a sad one give a sad-coloured bar: the colour is not the most frequent mood's |
| EmotionMap.Distribution | client/src/components/EmotionMap.jsx:57-74 | six counts, one per known mood in key order, each the number of entries with exactly that mood |
| EmotionMap.CountsAddUp | client/src/components/EmotionMap.jsx:67-71 | the six counts add up to the number of entries whose mood is known |
| EmotionMap.DistributionTotal | client/src/components/EmotionMap.jsx:57-77 | the counts sum to at most the history length, with equality iff every mood is known |
| EmotionMap.MostCommon | client/src/components/EmotionMap.jsx:194 | the chosen slot has a maximal count and every earlier slot a strictly smaller one (the stable sort's first element) |
| EmotionMap.MostCommonMood | client/src/components/EmotionMap.jsx:194 | "Most Common" has a count no other mood exceeds, ties going to the earliest of happy, calm, neutral, anxious, stressed, sad |
| EmotionMap.Recent | client/src/components/EmotionMap.jsx:161 | the min(5, n) newest entries, newest first |
| Therapy.NextCaption | client/src/components/TherapyMode.jsx:13-18 | the successor is always one of the four phase names |
| Therapy.CaptionCycle | client/src/components/TherapyMode.jsx:13-18 | four applications are the identity on the phase names; any other string goes to "inhale" |
| Therapy.CaptionFollowsSequencer | client/src/components/TherapyMode.jsx:13-18 | on phase names the caption successor agrees with the breathing sequencer for an exercise with both holds positive |
| Therapy.CaptionText | client/src/components/TherapyMode.jsx:25-30 | a caption has a text iff it is one of the four phase names |
| Therapy.CaptionIsPeriodic | client/src/components/TherapyMode.jsx:7-18 | after n ticks from "inhale" the caption is phase n mod 4, so it always has a text |
| Therapy.CaptionAsWritten | client/src/components/TherapyMode.jsx:10-23 | the caption interval exists only if the panel was open at mount; otherwise the caption stays "inhale" |
| Therapy.AsWrittenCaptionIsConstant | client/src/App.jsx:31 | mounted closed, the panel always shows "Breathe in slowly... 🌊", and differs from the intended cycle on every tick not a multiple of four |
| Therapy.Prompts | client/src/components/TherapyMode.jsx:32-49 | four guided prompts |
| Therapy.Render | client/src/components/TherapyMode.jsx:55-61 | a forwarded answer is handed to `onSendMessage` as "[Therapy Mode] " + question + "\n\nUser: " + answer, ending with the user's own words; the closing message is the farewell text |
| Therapy.HandleResponse | client/src/components/TherapyMode.jsx:51-65 | a blank answer changes and sends nothing; otherwise responses grow by exactly that answer, the answer is forwarded under the current question, the step advances while prompts remain, and after the last prompt the farewell follows and the dialogue closes; the step always indexes a prompt |
| Therapy.Answer | client/src/components/TherapyMode.jsx:51-65 | any sequence of answers keeps the step on a valid prompt |
| Therapy.AnswersAdvance | client/src/components/TherapyMode.jsx:54-58 | while prompts remain, after k non-blank answers prompt k is shown, all answers are kept in order, and k messages were sent |
| Therapy.AnswersForwarded | client/src/components/TherapyMode.jsx:54-55 | the i-th message sent is the i-th answer under the i-th question |
| Therapy.LastAnswerCloses | client/src/components/TherapyMode.jsx:57-63 | answering the last prompt closes the dialogue on that prompt with every answer kept, one message per answer and the farewell last |
| Therapy.FourthAnswerCloses | client/src/components/TherapyMode.jsx:57-63 | with the four prompts, the fourth non-blank answer closes the dialogue after five messages, the last the farewell |
| Therapy.Close | client/src/components/TherapyMode.jsx:67-75 | closing hides the panel and keeps the prompt index and the answers |
| Therapy.Reopen | client/src/components/TherapyMode.jsx:5-6 | reopening shows the panel with the prompt index and answers it had |
| Therapy.ReopenedDialogueEndsAtOnce | client/src/components/TherapyMode.jsx:51-65 | after a completed dialogue, reopening stays on the last prompt: one non-blank answer is forwarded under the last question, the farewell follows and the panel closes |
| Therapy.DotClass | client/src/components/TherapyMode.jsx:84-89 | the current prompt's dot is active and exactly the earlier ones are completed |
| InputBox.HandleSend | client/src/components/InputBox.jsx:7-12 | text is sent iff it is non-blank and the box enabled; the untrimmed buffer is sent and cleared, and a refused send leaves it unchanged |
| InputBox.HandleKeyDown | client/src/components/InputBox.jsx:14-19 | Enter without Shift suppresses the new line and attempts a send; any other key does neither |
| InputBox.ButtonMatchesSend | client/src/components/InputBox.jsx:34 | the button is enabled exactly when clicking it sends |
| InputBox.NoDoubleSend | client/src/components/InputBox.jsx:8-11 | a second send right after a successful one sends nothing |
| ApiKeyPrompt.InitialKey | client/src/components/ApiKeyPrompt.jsx:5 | the field starts with the stored key, or empty |
| ApiKeyPrompt.HandleSubmit | client/src/components/ApiKeyPrompt.jsx:8-13 | a key is saved iff it is non-blank; the saved key is the key without its blank ends, non-empty and with no blank end |
| ApiKeyPrompt.ResubmitKeepsKey | client/src/components/ApiKeyPrompt.jsx:5-13 | submitting a saved key again saves the same key |
| ApiKeyPrompt.SubmitDisabled | client/src/components/ApiKeyPrompt.jsx:52 | the submit button is disabled iff submitting would save nothing |
| ApiKeyPrompt.CancelShown | client/src/components/ApiKeyPrompt.jsx:55-59 | Cancel is shown iff a non-empty key is stored |
| ApiKeyPrompt.CancelIffKeyShown | client/src/components/ApiKeyPrompt.jsx:55-59 | Cancel is offered exactly when the field starts with a key |
| ApiKeyPrompt.FirstRunHasNoCancel | client/src/components/ApiKeyPrompt.jsx:52-59 | with no stored key there is no Cancel and submit starts disabled |
| Header.ShownMood | client/src/components/Header.jsx:14 | the label is the mood, or "neutral" when it is empty |
| Header.MoodEmoji | client/src/components/Header.jsx:28-38 | any string that is not a known mood gets the neutral face |
| Header.EmojiIdentifiesMood | client/src/components/Header.jsx:29-36 | known moods have distinct faces, and only neutral has the fallback face |
| Header.MoodClass | client/src/components/Header.jsx:4 | the class is "mood-" followed by the lowered shown mood, with no capital letters after the prefix |
| Header.Badge | client/src/components/Header.jsx:14 | the badge ends with a space and the shown mood |
| Header.CapitalisedMoodLosesItsFace | client/src/components/Header.jsx:4 | "Happy" gets class mood-happy but the neutral face, because the emoji lookup does not lower the mood |
| SnowflakeExport.ChooseCredential | src/services/snowflakeExport.js:55-63 | a personal access token wins (with authenticator OAUTH), else a password, else a private key; exactly one kind is chosen |
| SnowflakeExport.Connection | src/services/snowflakeExport.js:47-53 | warehouse, database and schema default to CLEARMIND_WH, MENTAL_HEALTH_DB, PUBLIC when unset |
| SnowflakeExport.RealModeIsConfigured | src/services/snowflakeExport.js:159-162 | the real export runs iff mock mode is off and account, user and a credential are all set |
| SnowflakeExport.Preview | src/services/snowflakeExport.js:80 | the preview is null iff the message is empty, else the first min(100, n) characters |
| SnowflakeExport.ShortMessageKeptWhole | src/services/snowflakeExport.js:80 | a message of at most 100 characters is previewed whole |
| SnowflakeExport.MoodRecords | src/services/snowflakeExport.js:76-82 | one row per entry in order, with the entry's mood and time, its preview, and the envelope's user and export time |
| SnowflakeExport.MoodRecordsAppend | src/services/snowflakeExport.js:76-82 | the mapping commutes with concatenation (order-preserving, one-to-one) |
| SnowflakeExport.RecordsKeepEntries | src/services/snowflakeExport.js:76-82 | each row gives back its entry's mood and time stamp |
| SnowflakeExport.MockExport | src/services/snowflakeExport.js:12-32 | the mock succeeds, counts one row per history entry (0 when there is no array), names table MOOD_HISTORY, reports the default warehouse, database and schema, and its id starts with "mock-export-" |
| SnowflakeExport.InsertAll | src/services/snowflakeExport.js:95-116 | the loop succeeds iff every insert does; on failure it reports the first failing insert's error |
| SnowflakeExport.InsertAllCountsRows | src/services/snowflakeExport.js:95-116 | a successful loop reports the sum of the rows the driver counted |
| SnowflakeExport.RealResultAsWritten | src/services/snowflakeExport.js:126-135 | the code's reply: success, the row count, an id starting "snowflake-", table MOOD_HISTORY, and each location field present exactly when its variable is set, holding that variable |
| SnowflakeExport.RealResult | src/services/snowflakeExport.js:47-53 | the corrected reply: success, the row count, table MOOD_HISTORY, and the location the connection used |
| SnowflakeExport.RealResultNamesConnection | src/services/snowflakeExport.js:126-135 | the corrected result names the location the connection used, and agrees with the code whenever all three location variables are set |
| SnowflakeExport.AsWrittenResultLosesLocation | src/services/snowflakeExport.js:131-133 | with the location variables unset the rows go to CLEARMIND_WH but the reply as written names no warehouse |
| SnowflakeExport.RealExport | src/services/snowflakeExport.js:39-141 | a connection or insert failure becomes an error prefixed "Snowflake export failed: "; it succeeds iff the connection and every insert do, and then reports the loop's row count, table MOOD_HISTORY and the raw location variables, absent when unset |
| SnowflakeExport.Validate | src/services/snowflakeExport.js:150-156 | a request is valid iff its user is non-empty and its history is an array (possibly empty) |
| SnowflakeExport.ExportHandler | src/services/snowflakeExport.js:146-183 | invalid requests get exactly the 400 reply; in mock mode the reply counts every entry; a failed real export gets a 500 "Export failed" carrying the prefixed message |
| SnowflakeExport.InvalidRequestTouchesNothing | src/services/snowflakeExport.js:150-156 | validation precedes any export: an invalid request's reply does not depend on the database |
| SnowflakeExport.RealExportReportsRows | src/services/snowflakeExport.js:164-174 | a successful real export replies with the rows the driver counted for the request's records |
| Server.Cors | src/server.js:27 | "*" allows every origin, anything else is split on commas into at least one comma-free origin |
| Server.CorsListRoundTrip | src/server.js:27 | joining the origin list with commas gives back the setting |
| Server.CorsReadsWrittenList | src/server.js:27 | a comma-free origin list written out with commas is read back as that list |
| Server.CoachInput | src/server.js:58-59 | the input is the user's text, or the sample check-in when the text is missing or empty |
| Server.CoachPrompt | src/server.js:60-65 | the prompt is the fixed instructions followed by the input |
| Server.Coach | src/server.js:67-76 | mood defaults to "neutral" and reply to the raw text; parsed fields override only when non-empty; unparsable text falls back without error; the mood is never empty |
| Server.MockAnswer | src/clients.js:8-9 | the mock model answer starts with "MOCK Gemini response for prompt: " |
| Server.MockCoachReply | tests/server.test.js:19-24 | in mock mode the coach replies with mood "neutral" and the non-empty mock text, for any user text |
| Server.SaveDefaults | src/server.js:85 | a missing mood is "neutral" and missing tokens are 0; present values are kept |
| Server.EmptyMoodIsKept | src/server.js:85 | a present but empty mood is stored as empty, unlike the coach's defaulting |

## Left out

- Timers and the React lifecycle are not modelled as real time. `setTimeout`/`setInterval` become discrete events, with time in whole milliseconds. Effect cleanup ordering, re-render races and the check-in's one-minute polling are not modelled.
- TherapyMode's caption interval is not modelled as a timer: `CaptionAsWritten` takes the panel's state at mount and a tick count.
- Network and SDK calls (the Gemini `fetch`, the Snowflake connect and execute, the client export POST) are parameters or oracles. The driver's `require` failure counts as a connection failure.
- Authentication (Auth0, `express-openid-connect`), static data and rendering, configuration loading, logging and the Express middleware are out of scope.
- `JSON.parse`, `JSON.stringify` and the regex engine are not modelled. `JSON.parse` is an oracle returning an optional record. Only the substring selection around it is modelled.
- Dates: the locale rendering of time stamps as day keys and the date ordering of keys are parameters (`dayOf`, `dateValue`). The check-in clock is a day and an hour.
- Floating-point display math (percentages, `toFixed`, circle sizes) and the `Math.random` affirmation picks are left out.
- Chat.CallModel: the "Please select a model first" error and any other thrown message enter only through the raw-message rejection. Prompt construction from recent context is not modelled.
- Text.ToLower: lowers ASCII capitals only; Unicode case mapping is left out. The classifier's keywords and the table keys are ASCII, so for them this is exact.
- Header.MoodClass: a mood with non-ASCII capitals keeps them in the model. For "ÉMU" the code's class is "mood-ému" and the model's is "mood-Ému".
- Chat.InterpretAnswer: the parsed `mood`, `reply` and `suggestion` are strings. A truthy non-string `mood`, such as a number, would make the header's `toLowerCase` throw; that is not modelled.
- Strings are sequences of code points. Where the source works on UTF-16, for example `substring(0, 50)` and `substring(0, 100)` on astral characters, lengths can differ.
- EmotionMap.Distribution: table lookups are over the six keys only. A mood such as "constructor" finds an inherited property of the JavaScript object. The real distribution would then gain a NaN entry, which is not modelled. The same applies to EmotionMap.Intensity, EmotionMap.Color and Header.MoodEmoji.
- EmotionMap.SortDays: the contract states ascending order and permutation. It does not state the relative order of two distinct keys with equal dates.
- EmotionMap.SortDays: day keys are assumed to parse as dates. `dateValue` is a total integer function. In locales whose `toLocaleDateString` output `new Date` cannot parse (for example "25.12.2026"), the comparator gives NaN and the order is implementation-defined; that is not modelled.
- Breathing.BreathCountAt: requires a positive `totalCycle`, which every catalogue exercise has. A zero-period interval is not modelled.
- Therapy.HandleResponse: the one- and two-second delays are collapsed into the response. Two answers within the delay, which read a stale `step` and `responses`, are not modelled.
- Therapy.HandleResponse: the dialogue's messages are handed to the chat's `sendMessage`, and their fate there is not modelled. An answer given while the chat is still loading the previous reply is dropped by `sendMessage` (client/src/App.jsx:185), yet the panel records it and moves on. The farewell is sent two seconds later through the `sendMessage` captured with the fourth answer, which still sees the chat as idle. If the fourth answer's reply takes longer, the two requests overlap: the first reply overwrites the farewell's placeholder, the fourth answer's placeholder stays, and one reply is lost.
- Server.Coach: parsed fields that are truthy but not strings (numbers, objects) are not modelled. A parse result of `null`, which makes the field access throw and fall back, is an oracle answer of `None`.
- SnowflakeExport.MockExport: a history that is not an array counts 0 rows. A directly called mock given a string history would count its length.
- SnowflakeExport.ExportHandler: the user id is a string. Non-string ids are not modelled.
- SnowflakeExport.InsertAll: each insert's result is modelled as a row count that is added up. The code adds the `complete` callback's third argument, which the driver passes as the statement's rows; if that is an array, `+=` concatenates strings rather than counting. Which one the driver passes is not modelled.
- SnowflakeExport.RealResultAsWritten: a location variable set to the empty string is treated as unset and omitted; the code would report it as "".
- SnowflakeExport.RealExport: the connection is not destroyed on failure in the code. Resource handling is not modelled.

## Findings

| source | as written | input that shows it | evidently intended | confidence | as-written member | corrected member |
|---|---|---|---|---|---|---|
| src/services/snowflakeExport.js:131-133 | The real export's reply reports `process.env.SNOWFLAKE_WAREHOUSE`, `_DATABASE` and `_SCHEMA` raw, while the connection used the defaults CLEARMIND_WH, MENTAL_HEALTH_DB and PUBLIC when they are unset. | Real mode with account, user and password set and no location variables: the rows go to CLEARMIND_WH.MENTAL_HEALTH_DB.PUBLIC, but the reply has no warehouse, database or schema. | Report the location the connection used, as the mock reply does. | medium; not executed | SnowflakeExport.AsWrittenResultLosesLocation | SnowflakeExport.RealResultNamesConnection |
| client/src/components/TherapyMode.jsx:10-23 | The caption interval is started from a `useState` initialiser, which runs once at mount and ignores `[isOpen]`; the app mounts the panel with `showTherapy` false (client/src/App.jsx:31, 325-326), so no interval ever starts. | Open therapy mode and wait any number of 1.25-second ticks: the caption stays "Breathe in slowly... 🌊". | Start the interval whenever the panel opens (an effect on `isOpen`), so the caption cycles through the four phases. | high; not executed | Therapy.AsWrittenCaptionIsConstant | Therapy.CaptionIsPeriodic |

=== FILE: api_key_prompt.dfy ===
/** The API-key dialog (client/src/components/ApiKeyPrompt.jsx): the field
    starts from the stored key, submitting saves the trimmed key when it is
    not blank, the submit button is disabled otherwise, and Cancel is offered
    only when a key is already stored. */
module ApiKeyPrompt {
  import opened Options
  import opened Text

  /** `currentKey || ''`: an absent or empty stored key gives an empty field. */
  function InitialKey(currentKey: Option<string>): (k: string)
    ensures currentKey.Some? ==> k == currentKey.value
    ensures currentKey.None? ==> k == ""
  {
    currentKey.GetOr("")
  }

  /** `handleSubmit`: the key saved, if any. */
  function HandleSubmit(key: string): (saved: Option<string>)
    ensures saved.Some? <==> !Blank(key)
    ensures saved.Some? ==> saved.value != [] && !IsSpace(saved.value[0]) && !IsSpace(saved.value[|saved.value| - 1])
    ensures saved.Some? ==> exists i :: Occurs(key, saved.value, i) && Blank(key[..i]) && Blank(key[i + |saved.value|..])
  {
    var t := Trim(key);
    if t != [] then Some(t) else None
  }

  /** Reopening the dialog on a saved key and submitting it again saves the
      same key. */
  lemma ResubmitKeepsKey(key: string)
    requires HandleSubmit(key).Some?
    ensures HandleSubmit(InitialKey(HandleSubmit(key))) == HandleSubmit(key)
  {
    TrimIdempotent(key);
  }

  /** The submit button is disabled exactly when submitting would save nothing. */
  function SubmitDisabled(key: string): (disabled: bool)
    ensures disabled <==> HandleSubmit(key).None?
  {
    Trim(key) == []
  }

  /** The Cancel button needs a stored key to return to: it is shown when the
      stored key is present and non-empty. */
  function CancelShown(currentKey: Option<string>): (shown: bool)
    ensures shown <==> currentKey.Some? && currentKey.value != ""
  {
    currentKey.Some? && currentKey.value != ""
  }

  /** Cancel is offered exactly when the field starts with a key. */
  lemma CancelIffKeyShown(currentKey: Option<string>)
    ensures CancelShown(currentKey) <==> InitialKey(currentKey) != ""
  {
  }

  /** The very first time (no key stored) the dialog cannot be dismissed
      without saving a key. */
  lemma FirstRunHasNoCancel()
    ensures !CancelShown(None) && SubmitDisabled(InitialKey(None))
  {
  }
}

=== FILE: arith.dfy ===
/** Integer facts the solver does not find by itself once multiplication by a
    variable is involved, and JavaScript's `Math.round` on a non-negative
    quotient. */
module Arith {

  lemma {:induction false} MulMono(a: nat, b: nat, c: nat)
    requires a <= b
    ensures a * c <= b * c
  {
    assert b * c == a * c + (b - a) * c;
  }

  /** Euclidean division recovers the quotient of `q * c + r`. */
  lemma {:induction false} DivOfMulAdd(q: nat, r: nat, c: nat)
    requires r < c
    ensures (q * c + r) / c == q
  {
    var x := q * c + r;
    var d := x / c;
    assert x == d * c + x % c;
    if d > q {
      assert d * c >= (q + 1) * c by { MulMono(q + 1, d, c); }
      assert false;
    } else if d < q {
      assert q * c >= (d + 1) * c by { MulMono(d + 1, q, c); }
      assert false;
    }
  }

  /** At least `k` whole `c`s fit in `x` exactly when `x >= k * c`. */
  lemma {:induction false} DivAtLeast(x: nat, c: nat, k: nat)
    requires c > 0
    ensures x / c >= k <==> x >= k * c
  {
    var q, r := x / c, x % c;
    assert x == q * c + r && 0 <= r < c;
    if q >= k {
      MulMono(k, q, c);
    } else {
      MulMono(q + 1, k, c);
      assert (q + 1) * c == q * c + c;
    }
  }

  lemma DivNonNegative(x: nat, c: nat)
    requires c > 0
    ensures x / c >= 0
  {
  }

  /** `Math.round(num / den)` for `num >= 0`: the nearest integer, halves
      rounded up. */
  function Round(num: nat, den: nat): (r: nat)
    requires den > 0
  {
    DivNonNegative(2 * num + den, 2 * den);
    (2 * num + den) / (2 * den)
  }

  /** The rounded value is within half a unit of the quotient, ties going up:
      r - 1/2 <= num/den < r + 1/2. */
  lemma RoundIsNearest(num: nat, den: nat)
    requires den > 0
    ensures 2 * Round(num, den) * den <= 2 * num + den < 2 * (Round(num, den) + 1) * den
  {
    var x, d := 2 * num + den, 2 * den;
    var r := x / d;
    var R := r * den;
    assert x == r * d + x % d;
    assert 0 <= x % d < d;
    assert r * d == 2 * R;
    assert 2 * r * den == 2 * R;
    assert 2 * (r + 1) * den == 2 * R + 2 * den;
  }

  /** A quotient that lies between two integers rounds to a value between them. */
  lemma RoundBetween(num: nat, den: nat, lo: nat, hi: nat)
    requires den > 0
    requires lo * den <= num <= hi * den
    ensures lo <= Round(num, den) <= hi
  {
    RoundAtLeast(num, den, lo);
    RoundAtMost(num, den, hi);
  }

  /** A quotient of at least `lo` rounds to at least `lo`. */
  lemma RoundAtLeast(num: nat, den: nat, lo: nat)
    requires den > 0 && lo * den <= num
    ensures lo <= Round(num, den)
  {
    var r := Round(num, den);
    var R := r * den;
    assert 2 * num + den < 2 * R + 2 * den by {
      RoundIsNearest(num, den);
      assert 2 * (r + 1) * den == 2 * R + 2 * den;
    }
    assert (r + 1) * den == R + den;
    if r < lo {
      MulMono(r + 1, lo, den);
      assert false;
    }
  }

  /** A quotient of at most `hi` rounds to at most `hi`. */
  lemma RoundAtMost(num: nat, den: nat, hi: nat)
    requires den > 0 && num <= hi * den
    ensures Round(num, den) <= hi
  {
    var r := Round(num, den);
    var R := r * den;
    assert 2 * R <= 2 * num + den by {
      RoundIsNearest(num, den);
      assert 2 * r * den == 2 * R;
    }
    assert (hi + 1) * den == hi * den + den;
    if r > hi {
      MulMono(hi + 1, r, den);
      assert false;
    }
  }
}

=== FILE: breathing.dfy ===
/** The breathing-exercise sequencer of the mindfulness panel
    (client/src/components/MindfulnessTools.jsx).

    An exercise fixes four whole-second phase lengths. The phase machine goes
    inhale, hold-in, exhale, hold-out and back to inhale, skipping a hold whose
    length is zero; inhale and exhale are entered on every pass whatever their
    length. Independently of the phases, a counter ticks once every
    `totalCycle` seconds. Timers are modelled as discrete events and time as
    whole milliseconds since the session started. */
module Breathing {
  import opened Options
  import opened Text
  import opened Arith

  datatype Phase = Inhale | HoldIn | Exhale | HoldOut

  /** The string the component keeps in `breathPhase`. */
  function PhaseName(p: Phase): string {
    match p
    case Inhale => "inhale"
    case HoldIn => "hold-in"
    case Exhale => "exhale"
    case HoldOut => "hold-out"
  }

  /** Phase lengths in seconds. */
  datatype Timing = Timing(inhale: nat, holdIn: nat, exhale: nat, holdOut: nat)

  datatype Exercise = Exercise(id: string, timing: Timing, totalCycle: nat)

  /** The sum of the four phase lengths. */
  function CycleSeconds(t: Timing): nat {
    t.inhale + t.holdIn + t.exhale + t.holdOut
  }

  /** The five exercises the panel offers, in display order. */
  function Catalogue(): (cs: seq<Exercise>)
    ensures |cs| == 5
    ensures forall k :: 0 <= k < |cs| ==> cs[k].totalCycle == CycleSeconds(cs[k].timing)
    ensures forall k :: 0 <= k < |cs| ==> cs[k].timing.inhale > 0 && cs[k].timing.exhale > 0
    ensures forall j, k :: 0 <= j < k < |cs| ==> cs[j].id != cs[k].id
  {
    [ Exercise("box-breathing", Timing(4, 4, 4, 4), 16),
      Exercise("deep-breathing", Timing(5, 2, 6, 2), 15),
      Exercise("478-breathing", Timing(4, 7, 8, 0), 19),
      Exercise("gratitude", Timing(4, 3, 5, 3), 15),
      Exercise("body-scan", Timing(6, 2, 7, 3), 18) ]
  }

  /** How long, in seconds, the sequencer stays in a phase once entered. */
  function Dwell(t: Timing, p: Phase): nat {
    match p
    case Inhale => t.inhale
    case HoldIn => t.holdIn
    case Exhale => t.exhale
    case HoldOut => t.holdOut
  }

  /** The phase entered when the pending timeout of phase `p` fires. */
  function Next(t: Timing, p: Phase): (q: Phase)
    ensures q == HoldIn <==> p == Inhale && t.holdIn > 0
    ensures q == HoldOut <==> p == Exhale && t.holdOut > 0
    ensures q == Exhale <==> p == HoldIn || (p == Inhale && t.holdIn == 0)
    ensures q == Inhale <==> p == HoldOut || (p == Exhale && t.holdOut == 0)
  {
    match p
    case Inhale => if t.holdIn > 0 then HoldIn else Exhale
    case HoldIn => Exhale
    case Exhale => if t.holdOut > 0 then HoldOut else Inhale
    case HoldOut => Inhale
  }

  /** The phases one pass enters, starting from inhale. */
  function Pass(t: Timing): seq<Phase> {
    [Inhale] + (if t.holdIn > 0 then [HoldIn] else []) + [Exhale] + (if t.holdOut > 0 then [HoldOut] else [])
  }

  /** Inhale and exhale belong to every pass; a hold belongs to it exactly when
      its length is positive. */
  lemma PassMembership(t: Timing)
    ensures Inhale in Pass(t) && Exhale in Pass(t)
    ensures HoldIn in Pass(t) <==> t.holdIn > 0
    ensures HoldOut in Pass(t) <==> t.holdOut > 0
    ensures 2 <= |Pass(t)| <= 4 && Pass(t)[0] == Inhale
  {
  }

  /** The phase reached after `n` transitions from `p`. */
  function After(t: Timing, p: Phase, n: nat): Phase
    decreases n
  {
    if n == 0 then p else After(t, Next(t, p), n - 1)
  }

  /** The `n` phases entered from `p` on, `p` first. */
  function Walk(t: Timing, p: Phase, n: nat): (ps: seq<Phase>)
    ensures |ps| == n
    decreases n
  {
    if n == 0 then [] else [p] + Walk(t, Next(t, p), n - 1)
  }

  /** Total dwell time, in seconds, of a sequence of phases. */
  function SumDwell(t: Timing, ps: seq<Phase>): nat {
    if |ps| == 0 then 0 else Dwell(t, ps[0]) + SumDwell(t, ps[1..])
  }

  /** Walking one pass length from inhale enters exactly the phases of the pass
      and comes back to inhale: the machine is periodic with period `|Pass(t)|`. */
  lemma {:induction false} PassIsPeriod(t: Timing)
    ensures Walk(t, Inhale, |Pass(t)|) == Pass(t)
    ensures After(t, Inhale, |Pass(t)|) == Inhale
  {
    var afterIn := if t.holdIn > 0 then HoldIn else Exhale;
    assert Next(t, Inhale) == afterIn;
    if t.holdIn > 0 {
      assert Next(t, HoldIn) == Exhale;
      assert Walk(t, Inhale, |Pass(t)|) == [Inhale] + Walk(t, HoldIn, |Pass(t)| - 1);
      assert Walk(t, HoldIn, |Pass(t)| - 1) == [HoldIn] + Walk(t, Exhale, |Pass(t)| - 2);
      assert After(t, Inhale, |Pass(t)|) == After(t, Exhale, |Pass(t)| - 2);
      ExhaleTail(t);
    } else {
      assert Walk(t, Inhale, |Pass(t)|) == [Inhale] + Walk(t, Exhale, |Pass(t)| - 1);
      assert After(t, Inhale, |Pass(t)|) == After(t, Exhale, |Pass(t)| - 1);
      ExhaleTail(t);
    }
  }

  /** The tail of a pass, from exhale back to inhale. */
  lemma {:induction false} ExhaleTail(t: Timing)
    ensures var m := if t.holdOut > 0 then 2 else 1;
            Walk(t, Exhale, m) == [Exhale] + (if t.holdOut > 0 then [HoldOut] else [])
            && After(t, Exhale, m) == Inhale
  {
    if t.holdOut > 0 {
      assert Walk(t, Exhale, 2) == [Exhale] + Walk(t, HoldOut, 1);
      assert Walk(t, HoldOut, 1) == [HoldOut] + Walk(t, Inhale, 0);
      assert After(t, Exhale, 2) == After(t, HoldOut, 1);
      assert After(t, HoldOut, 1) == After(t, Inhale, 0);
    } else {
      assert Walk(t, Exhale, 1) == [Exhale] + Walk(t, Inhale, 0);
      assert After(t, Exhale, 1) == After(t, Inhale, 0);
    }
  }

  /** One pass lasts the sum of the four lengths: a skipped hold would have
      contributed zero seconds anyway. */
  lemma PassSeconds(t: Timing)
    ensures SumDwell(t, Pass(t)) == CycleSeconds(t)
  {
    var p := Pass(t);
    assert SumDwell(t, p) == Dwell(t, p[0]) + SumDwell(t, p[1..]);
    if t.holdIn > 0 {
      assert SumDwell(t, p[1..]) == t.holdIn + SumDwell(t, p[2..]);
      assert SumDwell(t, p[2..]) == t.exhale + SumDwell(t, p[3..]);
    } else {
      assert SumDwell(t, p[1..]) == t.exhale + SumDwell(t, p[2..]);
    }
  }

  /** A phase entry: which phase, and when (ms after the session started). */
  datatype Tick = Tick(phase: Phase, at: nat)

  /** The first `n` phase entries of a sequence that enters `p` at time `at`;
      each phase is left after its length times 1000 ms. */
  function Run(t: Timing, p: Phase, at: nat, n: nat): (r: seq<Tick>)
    ensures |r| == n
    decreases n
  {
    if n == 0 then [] else [Tick(p, at)] + Run(t, Next(t, p), at + 1000 * Dwell(t, p), n - 1)
  }

  /** The first `n` phase entries after the session starts. */
  function Timeline(t: Timing, n: nat): (r: seq<Tick>)
    ensures |r| == n
  {
    Run(t, Inhale, 0, n)
  }

  /** A run of `m + n` entries is a run of `m` followed by a run of `n` that
      starts where and when the first one stopped. */
  lemma {:induction false} RunSplit(t: Timing, p: Phase, a: nat, m: nat, n: nat)
    ensures Run(t, p, a, m + n)
         == Run(t, p, a, m) + Run(t, After(t, p, m), a + 1000 * SumDwell(t, Walk(t, p, m)), n)
    decreases m
  {
    if m > 0 {
      var a' := a + 1000 * Dwell(t, p);
      RunSplit(t, Next(t, p), a', m - 1, n);
      assert Walk(t, p, m)[1..] == Walk(t, Next(t, p), m - 1);
    }
  }

  /** The phases of a run are the phases of the walk. */
  lemma {:induction false} RunFollowsWalk(t: Timing, p: Phase, a: nat, n: nat)
    ensures forall i :: 0 <= i < n ==> Run(t, p, a, n)[i].phase == Walk(t, p, n)[i]
    decreases n
  {
    if n > 0 {
      RunFollowsWalk(t, Next(t, p), a + 1000 * Dwell(t, p), n - 1);
    }
  }

  /** From a phase of the pass, the machine only ever enters phases of the pass. */
  lemma {:induction false} RunStaysInPass(t: Timing, p: Phase, a: nat, n: nat)
    requires p in Pass(t)
    ensures forall i :: 0 <= i < n ==> Run(t, p, a, n)[i].phase in Pass(t)
    decreases n
  {
    if n > 0 {
      assert Next(t, p) in Pass(t);
      RunStaysInPass(t, Next(t, p), a + 1000 * Dwell(t, p), n - 1);
    }
  }

  /** Phase `q` is entered among the first `n` entries of a session. */
  predicate Observed(t: Timing, n: nat, q: Phase) {
    exists i | 0 <= i < n :: Timeline(t, n)[i].phase == q
  }

  /** Once a whole pass has gone by, the phases seen are exactly those of the
      pass; before that, nothing outside the pass has been seen. */
  lemma ObservedIffInPass(t: Timing, n: nat, q: Phase)
    ensures Observed(t, n, q) ==> q in Pass(t)
    ensures n >= |Pass(t)| && q in Pass(t) ==> Observed(t, n, q)
  {
    ObservedOnlyInPass(t, n, q);
    if n >= |Pass(t)| && q in Pass(t) {
      PassObserved(t, n, q);
    }
  }

  /** Nothing outside the pass is ever entered. */
  lemma ObservedOnlyInPass(t: Timing, n: nat, q: Phase)
    ensures Observed(t, n, q) ==> q in Pass(t)
  {
    PassMembership(t);
    RunStaysInPass(t, Inhale, 0, n);
  }

  /** Every phase of the pass is entered during the first pass. */
  lemma PassObserved(t: Timing, n: nat, q: Phase)
    requires n >= |Pass(t)| && q in Pass(t)
    ensures Observed(t, n, q)
  {
    var L := |Pass(t)|;
    var k :| 0 <= k < L && Pass(t)[k] == q;
    assert Run(t, Inhale, 0, L)[k].phase == q by {
      RunFollowsWalk(t, Inhale, 0, L);
      PassIsPeriod(t);
    }
    assert Timeline(t, n)[k] == Run(t, Inhale, 0, L)[k] by {
      RunSplit(t, Inhale, 0, L, n - L);
      assert L + (n - L) == n;
    }
  }

  /** Hold-in shows up in a session exactly when its length is positive;
      otherwise inhale is followed directly by exhale. */
  lemma HoldInObservedIff(t: Timing, n: nat)
    requires n >= |Pass(t)|
    ensures Observed(t, n, HoldIn) <==> t.holdIn > 0
  {
    PassMembership(t);
    ObservedIffInPass(t, n, HoldIn);
  }

  /** Hold-out shows up in a session exactly when its length is positive;
      otherwise exhale is followed directly by the next inhale. */
  lemma HoldOutObservedIff(t: Timing, n: nat)
    requires n >= |Pass(t)|
    ensures Observed(t, n, HoldOut) <==> t.holdOut > 0
  {
    PassMembership(t);
    ObservedIffInPass(t, n, HoldOut);
  }

  /** Inhale and exhale are entered in every pass, even with zero length. */
  lemma BreathsAlwaysObserved(t: Timing, n: nat)
    requires n >= |Pass(t)|
    ensures Observed(t, n, Inhale) && Observed(t, n, Exhale)
  {
    PassMembership(t);
    ObservedIffInPass(t, n, Inhale);
    ObservedIffInPass(t, n, Exhale);
  }

  /** The 4-7-8 exercise never rests: hold-out is never entered, however long
      the session runs. */
  lemma FourSevenEightNeverRests(n: nat)
    ensures Catalogue()[2].id == "478-breathing"
    ensures !Observed(Catalogue()[2].timing, n, HoldOut)
  {
    var t := Catalogue()[2].timing;
    PassMembership(t);
    ObservedIffInPass(t, n, HoldOut);
  }

  /** The length of one pass in milliseconds. */
  function CycleMs(t: Timing): nat {
    1000 * CycleSeconds(t)
  }

  /** The k-th pass begins with inhale, exactly k whole cycles after the start:
      each pass lasts `CycleSeconds` seconds. */
  lemma {:induction false} InhaleEveryCycle(t: Timing, a: nat, k: nat, n: nat)
    requires k * |Pass(t)| < n
    ensures Run(t, Inhale, a, n)[k * |Pass(t)|] == Tick(Inhale, a + k * CycleMs(t))
    decreases k
  {
    if k > 0 {
      var L := |Pass(t)|;
      var C := CycleMs(t);
      var j := (k - 1) * L;
      assert k * L == L + j;
      assert Run(t, Inhale, a, n) == Run(t, Inhale, a, L) + Run(t, Inhale, a + C, n - L) by {
        PassIsPeriod(t);
        PassSeconds(t);
        RunSplit(t, Inhale, a, L, n - L);
        assert L + (n - L) == n;
      }
      InhaleEveryCycle(t, a + C, k - 1, n - L);
      assert Run(t, Inhale, a, n)[L + j] == Run(t, Inhale, a + C, n - L)[j];
      assert a + C + (k - 1) * C == a + k * C;
    }
  }

  /** The period of the counter interval, in milliseconds. */
  function IntervalMs(e: Exercise): (r: nat)
    ensures e.totalCycle > 0 ==> r >= 1000
  {
    e.totalCycle * 1000
  }

  /** The breath counter after `ms` milliseconds: the number of whole
      intervals that have elapsed. */
  function BreathCountAt(e: Exercise, ms: nat): nat
    requires e.totalCycle > 0
  {
    var c := IntervalMs(e);
    DivNonNegative(ms, c);
    ms / c
  }

  /** The counter never decreases and rises by exactly one per `totalCycle`. */
  lemma CounterTicksOncePerCycle(e: Exercise, ms: nat, ms': nat)
    requires e.totalCycle > 0
    ensures ms <= ms' ==> BreathCountAt(e, ms) <= BreathCountAt(e, ms')
    ensures BreathCountAt(e, ms + IntervalMs(e)) == BreathCountAt(e, ms) + 1
  {
    var c := IntervalMs(e);
    var q, r := ms / c, ms % c;
    assert ms == q * c + r;
    assert ms + c == (q + 1) * c + r;
    DivOfMulAdd(q + 1, r, c);
    if ms <= ms' {
      var q', r' := ms' / c, ms' % c;
      assert ms' == q' * c + r';
      if q' < q {
        MulMono(q' + 1, q, c);
        assert false;
      }
    }
  }

  /** When `totalCycle` is the sum of the phase lengths, as it is for every
      catalogue exercise, and with timers that fire on time, the separately
      timed counter reads k exactly when the phase machine starts its k-th
      pass. Browser timers that fire late make the chained timeouts lag the
      interval; that is not modelled. */
  lemma {:induction false} CounterInStepWithPhases(e: Exercise, k: nat)
    requires e.totalCycle > 0 && e.totalCycle == CycleSeconds(e.timing)
    ensures var i := k * |Pass(e.timing)|;
            var tick := Timeline(e.timing, i + 1)[i];
            tick.phase == Inhale && BreathCountAt(e, tick.at) == k
  {
    var t := e.timing;
    InhaleEveryCycle(t, 0, k, k * |Pass(t)| + 1);
    var c := IntervalMs(e);
    assert CycleMs(t) == c;
    DivOfMulAdd(k, 0, c);
  }

  /** The component state of the panel, plus the timers it owns: the
      repeating counter interval and the one pending phase timeout. */
  datatype Session = Session(
    active: Option<Exercise>,
    breathing: bool,
    count: nat,
    phase: Phase,
    intervalArmed: bool,
    pendingTimeouts: nat)

  /** The panel when it first mounts. */
  function Initial(): (s: Session)
    ensures !s.breathing && s.active.None? && s.count == 0 && s.phase == Inhale
    ensures s.pendingTimeouts == 0 && !s.intervalArmed
  {
    Session(None, false, 0, Inhale, false, 0)
  }

  datatype Event = Start(exercise: Exercise) | Stop | PhaseTimeout | IntervalTick

  /** One event. Starting always re-runs the effect (the catalogue is rebuilt on
      every render, so the chosen exercise is a new dependency): the previous
      timers are cleared, the counter is reset and the sequence begins at
      inhale with one timeout pending. Stopping clears the flags and both
      timers but leaves the counter and phase as they were. */
  function Step(s: Session, ev: Event): Session {
    match ev
    case Start(e) => Session(Some(e), true, 0, Inhale, true, 1)
    case Stop => s.(breathing := false, active := None, intervalArmed := false, pendingTimeouts := 0)
    case PhaseTimeout =>
      if s.pendingTimeouts > 0 && s.active.Some? then
        s.(phase := Next(s.active.value.timing, s.phase))
      else s
    case IntervalTick =>
      if s.intervalArmed then s.(count := s.count + 1) else s
  }

  /** The invariant the panel keeps: a session is running exactly when an
      exercise is active, exactly then are the interval and a single phase
      timeout armed, and the phase is one the running exercise can enter. */
  predicate Valid(s: Session) {
    && (s.breathing <==> s.active.Some?)
    && (s.intervalArmed <==> s.breathing)
    && s.pendingTimeouts == (if s.breathing then 1 else 0)
    && (s.active.Some? ==> s.phase in Pass(s.active.value.timing))
  }

  /** Every event keeps the invariant: in particular at most one phase
      timeout is ever pending. */
  lemma StepKeepsValid(s: Session, ev: Event)
    requires Valid(s)
    ensures Valid(Step(s, ev))
    ensures Step(s, ev).pendingTimeouts <= 1
  {
    match ev
    case Start(e) => PassMembership(e.timing);
    case Stop =>
    case PhaseTimeout =>
      if s.pendingTimeouts > 0 && s.active.Some? {
        var t := s.active.value.timing;
        assert Next(t, s.phase) in Pass(t);
      }
    case IntervalTick =>
  }

  /** Starting resets the counter and begins at inhale; stopping leaves nothing
      armed; apart from a start, no event lowers the counter, and only the
      interval raises it, by one. */
  lemma StepCounter(s: Session, ev: Event)
    requires Valid(s)
    ensures ev.Start? ==> Step(s, ev).count == 0 && Step(s, ev).phase == Inhale && Step(s, ev).breathing
    ensures ev.Stop? ==> !Step(s, ev).breathing && Step(s, ev).active.None?
                         && Step(s, ev).pendingTimeouts == 0 && !Step(s, ev).intervalArmed
    ensures !ev.Start? ==> Step(s, ev).count >= s.count
    ensures Step(s, ev).count == s.count + 1 <==> ev.IntervalTick? && s.breathing
    ensures !s.breathing && !ev.Start? ==> Step(s, ev).count == s.count && Step(s, ev).phase == s.phase
  {
  }

  /** After a stop no further event but a new start changes anything. */
  lemma {:induction false} NothingAfterStop(s: Session, evs: seq<Event>)
    requires Valid(s)
    requires forall k :: 0 <= k < |evs| ==> !evs[k].Start?
    ensures Steps(Step(s, Stop), evs) == Step(s, Stop)
  {
    if |evs| > 0 {
      assert Step(Step(s, Stop), evs[0]) == Step(s, Stop);
      NothingAfterStop(s, evs[1..]);
    }
  }

  /** The state after a sequence of events. */
  function Steps(s: Session, evs: seq<Event>): Session
    decreases |evs|
  {
    if |evs| == 0 then s else Steps(Step(s, evs[0]), evs[1..])
  }

  /** The text shown under the exercise name. */
  function Instruction(active: Option<Exercise>, phase: Phase): (r: string)
    ensures active.None? ==> r == "Breathe..."
  {
    match active
    case None => "Breathe..."
    case Some(e) =>
      var t := e.timing;
      match phase
      case Inhale => "🌊 Breathe In... (" + NatToString(t.inhale) + "s)"
      case HoldIn => if t.holdIn > 0 then "⏸️ Hold... (" + NatToString(t.holdIn) + "s)" else ""
      case Exhale => "💨 Breathe Out... (" + NatToString(t.exhale) + "s)"
      case HoldOut => if t.holdOut > 0 then "✨ Rest... (" + NatToString(t.holdOut) + "s)" else ""
  }

  /** A hold text is non-empty exactly when the hold lasts; inhale and exhale
      always have a text. */
  lemma InstructionNonEmptyIff(e: Exercise, p: Phase)
    ensures Instruction(Some(e), p) != "" <==> p == Inhale || p == Exhale || Dwell(e.timing, p) > 0
  {
  }

  /** Every non-empty phase text ends with the phase length, in seconds, in
      parentheses. */
  lemma InstructionShowsDwell(e: Exercise, p: Phase)
    requires Instruction(Some(e), p) != ""
    ensures EndsWith(Instruction(Some(e), p), "(" + NatToString(Dwell(e.timing, p)) + "s)")
  {
    var d := "(" + NatToString(Dwell(e.timing, p)) + "s)";
    var r := Instruction(Some(e), p);
    var head := match p
      case Inhale => "🌊 Breathe In... "
      case HoldIn => "⏸️ Hold... "
      case Exhale => "💨 Breathe Out... "
      case HoldOut => "✨ Rest... ";
    assert r == head + d;
    assert r[|r| - |d|..] == d;
  }

  /** The encouragement under the orb switches once five cycles are counted. */
  function ProgressText(count: nat): (r: string)
    ensures r == Praise <==> count >= 5
  {
    if count >= 5 then Praise
    else "Keep breathing... You're doing great! 💫"
  }

  const Praise := "Amazing progress! You're doing wonderfully! 🌟"

  /** The praise appears once five whole intervals have elapsed, and not
      before. */
  lemma PraiseFromFifthInterval(e: Exercise, ms: nat)
    requires e.totalCycle > 0
    ensures ProgressText(BreathCountAt(e, ms)) == Praise <==> ms >= 5 * IntervalMs(e)
  {
    DivAtLeast(ms, IntervalMs(e), 5);
  }
}

=== FILE: chat.dfy ===
/** The chat logic of the application shell (client/src/App.jsx): the keyword
    mood classifier, the shaping of the language model's answer into a reply,
    the message list with its "thinking" placeholder, error texts, the insight
    cadence and the daily check-in gate. The model call itself, `JSON.parse`
    and the clock are parameters. */
module Chat {
  import opened Options
  import opened Text
  import opened Moods

  // ---------------------------------------------------------------- moods

  /** The keyword families the classifier tries, in priority order. */
  function Categories(): (cs: seq<(Mood, seq<string>)>)
    ensures |cs| == 5
    ensures forall k :: 0 <= k < |cs| ==> cs[k].0 != Neutral
  {
    [ (Happy, ["happy", "joy", "excited", "great", "awesome", "wonderful", "love", "amazing"]),
      (Calm, ["calm", "peaceful", "relax", "serene", "content", "fine"]),
      (Anxious, ["anxious", "nervous", "worried", "scared", "afraid", "panic"]),
      (Stressed, ["stress", "overwhelm", "pressure", "busy", "exhausted", "tired"]),
      (Sad, ["sad", "depressed", "down", "upset", "lonely", "cry"]) ]
  }

  /** Some keyword of the family occurs in the text. */
  predicate Mentions(text: string, words: seq<string>) {
    exists w | w in words :: Contains(text, w)
  }

  /** The mood of the first family from index `i` on that the text mentions. */
  function FirstMatch(text: string, cs: seq<(Mood, seq<string>)>, i: nat): Mood
    decreases |cs| - i
  {
    if i >= |cs| then Neutral
    else if Mentions(text, cs[i].1) then cs[i].0
    else FirstMatch(text, cs, i + 1)
  }

  /** `detectMood`: the text is lowered and the families are tried in order. */
  function DetectMood(text: string): Mood {
    FirstMatch(ToLower(text), Categories(), 0)
  }

  /** The search returns the first mentioned family after `i`, or neutral when
      none is mentioned. */
  lemma {:induction false} FirstMatchIsFirst(text: string, cs: seq<(Mood, seq<string>)>, i: nat)
    requires forall k :: 0 <= k < |cs| ==> cs[k].0 != Neutral
    ensures var m := FirstMatch(text, cs, i);
            && (m == Neutral <==> forall k :: i <= k < |cs| ==> !Mentions(text, cs[k].1))
            && (m != Neutral ==> exists k :: i <= k < |cs| && cs[k].0 == m && Mentions(text, cs[k].1)
                                   && forall j :: i <= j < k ==> !Mentions(text, cs[j].1))
    decreases |cs| - i
  {
    if i < |cs| && !Mentions(text, cs[i].1) {
      FirstMatchIsFirst(text, cs, i + 1);
    }
  }

  /** The classifier answers with the first family, in the order happy, calm,
      anxious, stressed, sad, whose keyword occurs in the lowered text, and
      with neutral exactly when no keyword occurs. */
  lemma DetectMoodPriority(text: string)
    ensures var m := DetectMood(text);
            var cs := Categories();
            var lower := ToLower(text);
            && (m == Neutral <==> forall k :: 0 <= k < |cs| ==> !Mentions(lower, cs[k].1))
            && (m != Neutral ==> exists k :: 0 <= k < |cs| && cs[k].0 == m && Mentions(lower, cs[k].1)
                                   && forall j :: 0 <= j < k ==> !Mentions(lower, cs[j].1))
  {
    FirstMatchIsFirst(ToLower(text), Categories(), 0);
  }

  /** Matching is by substring, so a negated word still counts: "unhappy" is happy. */
  lemma UnhappyIsHappy()
    ensures DetectMood("unhappy") == Happy
  {
    var lower := ToLower("unhappy");
    assert lower == "unhappy";
    assert Occurs(lower, "happy", 2);
    assert "happy" in Categories()[0].1;
    assert Mentions(lower, Categories()[0].1);
  }

  /** Matching ignores ASCII case. */
  lemma ClassifierIgnoresCase(text: string)
    ensures DetectMood(ToLower(text)) == DetectMood(text)
  {
    ToLowerFacts(text);
  }

  // ------------------------------------------------------- model answers

  /** The fields the application reads from a parsed answer. A field that is
      absent, null or otherwise falsy is the empty string. */
  datatype Reply = Reply(mood: string, reply: string, suggestion: string)

  /** Predicate of the non-greedy match `/\{[\s\S]*?\}/` found at index `i`:
      it begins at the first '{' of the text and ends at the first '}' after it. */
  predicate LazyBraceMatch(text: string, s: string, i: nat) {
    && Occurs(text, s, i)
    && |s| >= 2 && s[0] == '{' && s[|s| - 1] == '}'
    && (forall k :: 0 <= k < i ==> text[k] != '{')
    && (forall k :: 1 <= k < |s| - 1 ==> s[k] != '}')
  }

  /** The text the application hands to `JSON.parse`, if any. */
  function ExtractJson(text: string): (r: Option<string>)
    ensures r.Some? ==> exists i :: LazyBraceMatch(text, r.value, i)
    ensures r.None? <==> forall i, j :: 0 <= i < j < |text| && text[i] == '{' ==> text[j] != '}'
  {
    match IndexOf(text, '{', 0)
    case None => None
    case Some(i) =>
      match IndexOf(text, '}', i + 1)
      case None => None
      case Some(j) =>
        var s := text[i..j + 1];
        assert LazyBraceMatch(text, s, i) by {
          forall k | 1 <= k < |s| - 1 ensures s[k] != '}' {
            assert s[k] == text[i + k];
          }
        }
        Some(s)
  }

  /** Conversely, whenever the non-greedy match exists, it is what
      `ExtractJson` returns: the match is unique and nothing else is picked. */
  lemma ExtractJsonFindsMatch(text: string, s: string, i: nat)
    requires LazyBraceMatch(text, s, i)
    ensures ExtractJson(text) == Some(s)
  {
    assert text[i] == s[0];
    var o := IndexOf(text, '{', 0);
    assert o == Some(i);
    var e := i + |s| - 1;
    assert text[e] == s[|s| - 1];
    var q := IndexOf(text, '}', i + 1);
    assert q.Some? && q.value <= e;
    assert s[q.value - i] == text[q.value];
    assert q.value == e;
    assert text[i..e + 1] == s;
  }

  /** A nested object is cut at the first closing brace. */
  lemma NestedObjectIsCutShort()
    ensures ExtractJson("{\"a\":{\"b\":1}}") == Some("{\"a\":{\"b\":1}")
  {
    var text := "{\"a\":{\"b\":1}}";
    assert text[0] == '{';
    assert IndexOf(text, '{', 0) == Some(0);
    assert text[11] == '}';
    assert forall k :: 1 <= k < 11 ==> text[k] != '}';
    assert IndexOf(text, '}', 1) == Some(11);
    assert text[0..12] == "{\"a\":{\"b\":1}";
  }

  const ListeningReply := "I'm here to listen. Tell me more about how you're feeling."

  /** The answer used when no object could be extracted or parsed. */
  function Fallback(userMessage: string, text: string): Reply {
    var t := Trim(text);
    Reply(Name(DetectMood(userMessage)), if t != "" then t else ListeningReply, "")
  }

  /** `callGeminiAPI` after the model has answered with `text`: the extracted
      object when `parse` accepts it, the fallback otherwise. */
  function InterpretAnswer(userMessage: string, text: string, parse: string -> Option<Reply>): (r: Reply)
    ensures (match ExtractJson(text) case Some(j) => parse(j).None? case None => true)
            ==> r == Fallback(userMessage, text)
    ensures ExtractJson(text).Some? && parse(ExtractJson(text).value).Some?
            ==> r == parse(ExtractJson(text).value).value
  {
    match ExtractJson(text)
    case Some(j) =>
      (match parse(j)
       case Some(d) => d
       case None => Fallback(userMessage, text))
    case None => Fallback(userMessage, text)
  }

  /** The fallback classifies the user's own words, carries no tip, and always
      has a non-empty reply: the trimmed model text, which has no blank ends,
      when there is any, the listening message otherwise. */
  lemma FallbackShape(userMessage: string, text: string)
    ensures var f := Fallback(userMessage, text);
            && f.mood == Name(DetectMood(userMessage))
            && f.suggestion == ""
            && f.reply != ""
            && (Blank(text) ==> f.reply == ListeningReply)
            && (!Blank(text) ==> f.reply == Trim(text) && !IsSpace(f.reply[0]) && !IsSpace(f.reply[|f.reply| - 1]))
  {
  }

  const DefaultReply := "I'm here with you."
  const TipSeparator := "\n\n💡 Tip: "

  /** The text that replaces the placeholder: the reply (or a default when it
      is empty), followed by the tip when there is one. */
  function ShownReply(d: Reply): (r: string)
    ensures StartsWith(r, if d.reply != "" then d.reply else DefaultReply)
    ensures d.suggestion == "" ==> r == (if d.reply != "" then d.reply else DefaultReply)
    ensures d.suggestion != "" ==> EndsWith(r, TipSeparator + d.suggestion)
    ensures |r| == |if d.reply != "" then d.reply else DefaultReply|
                   + (if d.suggestion != "" then |TipSeparator| + |d.suggestion| else 0)
  {
    var base := if d.reply != "" then d.reply else DefaultReply;
    if d.suggestion != "" then
      var r := base + TipSeparator + d.suggestion;
      assert r[..|base|] == base;
      assert r[|r| - |TipSeparator + d.suggestion|..] == TipSeparator + d.suggestion;
      r
    else base
  }

  /** The mood the badge shows after an answer. */
  function ShownMood(d: Reply): (m: string)
    ensures m != ""
    ensures d.mood != "" ==> m == d.mood
    ensures d.mood == "" ==> m == "neutral"
  {
    if d.mood != "" then d.mood else "neutral"
  }

  // -------------------------------------------------------------- errors

  /** What can come back from the model call. */
  datatype ApiResponse =
    | Answer(text: string)              // HTTP 200 with candidate text (or '')
    | HttpError(status: nat, body: string)
    | NetworkFailure(message: string)   // the rejection `fetch` raises itself

  /** The message of the error thrown for a non-2xx answer. */
  function ApiErrorMessage(status: nat, body: string): string {
    "Gemini API error (" + NatToString(status) + "): " + body
  }

  datatype ErrorKind = Network | BadKey | RateLimited | Other

  /** The error families, tried in order. */
  function ClassifyError(message: string): (k: ErrorKind)
    ensures k == Network <==> Contains(message, "Failed to fetch")
    ensures k == BadKey <==> !Contains(message, "Failed to fetch") && Contains(message, "403")
    ensures k == RateLimited <==> !Contains(message, "Failed to fetch") && !Contains(message, "403")
                                  && Contains(message, "429")
  {
    if Contains(message, "Failed to fetch") then Network
    else if Contains(message, "403") then BadKey
    else if Contains(message, "429") then RateLimited
    else Other
  }

  const Apology := "❌ Sorry, something went wrong. "
  const NetworkHint := "Network error - check your internet connection."
  const KeyHint := "API key may be invalid or restricted."
  const RateHint := "Rate limit exceeded. Please wait a moment."

  /** The text that replaces the placeholder when the call fails: the apology,
      then either a fixed hint for a recognised failure or the raw message. */
  function ErrorText(message: string): (r: string)
    ensures StartsWith(r, Apology)
    ensures ClassifyError(message) == Other ==> r[|Apology|..] == message
    ensures ClassifyError(message) == Network ==> r[|Apology|..] == NetworkHint
    ensures ClassifyError(message) == BadKey ==> r[|Apology|..] == KeyHint
    ensures ClassifyError(message) == RateLimited ==> r[|Apology|..] == RateHint
  {
    var tail := match ClassifyError(message)
      case Network => NetworkHint
      case BadKey => KeyHint
      case RateLimited => RateHint
      case Other => message;
    var r := Apology + tail;
    assert r[..|Apology|] == Apology && r[|Apology|..] == tail;
    r
  }

  /** An occurrence of `k` in `p + b` lies inside `b` when `k`'s first
      character never appears in `p`. */
  lemma {:induction false} ContainsPastPrefix(p: string, b: string, k: string)
    requires |k| > 0 && k[0] !in p
    requires Contains(p + b, k)
    ensures Contains(b, k)
  {
    var s := p + b;
    var i :| 0 <= i <= |s| - |k| && Occurs(s, k, i);
    assert s[i] == k[0];
    assert Occurs(b, k, i - |p|) by {
      assert b[i - |p|..i - |p| + |k|] == s[i..i + |k|];
    }
  }

  /** A 403 answer is reported as a key problem, unless its body itself talks
      about a failed fetch. */
  lemma ForbiddenMeansBadKey(body: string)
    requires !Contains(body, "Failed to fetch")
    ensures ClassifyError(ApiErrorMessage(403, body)) == BadKey
  {
    var digits := NatToString(403);
    assert digits == "403";
    var p := "Gemini API error (" + digits + "): ";
    assert ApiErrorMessage(403, body) == p + body;
    assert Occurs(p + body, "403", 18);
    if Contains(p + body, "Failed to fetch") {
      assert "Failed to fetch"[0] == 'F';
      assert 'F' !in p;
      ContainsPastPrefix(p, body, "Failed to fetch");
    }
  }

  // ------------------------------------------------------- message list

  datatype Role = Me | Ai
  datatype Message = Message(role: Role, text: string)

  const Thinking := "💭 thinking..."

  /** The part of the application state `sendMessage` touches. */
  datatype ChatState = ChatState(
    messages: seq<Message>,
    mood: string,
    loading: bool,
    history: seq<MoodEntry>,
    conversations: nat)

  /** `sendMessage` refuses blank text and any text while a call is in flight. */
  predicate Accepts(s: ChatState, text: string) {
    !Blank(text) && !s.loading
  }

  /** The synchronous half of `sendMessage`: the user's message and the
      placeholder are appended and the state turns to loading. */
  function BeginSend(s: ChatState, text: string): (s': ChatState)
    requires Accepts(s, text)
    ensures |s'.messages| == |s.messages| + 2
    ensures s'.messages[..|s.messages|] == s.messages
    ensures s'.messages[|s.messages|..] == [Message(Me, text), Message(Ai, Thinking)]
    ensures s'.loading
    ensures s'.history == s.history && s'.mood == s.mood && s'.conversations == s.conversations
  {
    var m := s.messages + [Message(Me, text), Message(Ai, Thinking)];
    assert m[..|s.messages|] == s.messages;
    s.(messages := m, loading := true)
  }

  /** The list with its last entry overwritten. */
  function ReplaceLast(ms: seq<Message>, m: Message): (r: seq<Message>)
    requires |ms| > 0
    ensures |r| == |ms| && r[..|ms| - 1] == ms[..|ms| - 1] && r[|ms| - 1] == m
  {
    ms[..|ms| - 1] + [m]
  }

  /** The outcome of `sendMessage`: the new state, whether an insight request
      was scheduled, and the mood history that request will read. The timeout
      calls the `generateInsights` of the render in which the send began, so
      it reads the history from before this send's entry. */
  datatype Sent = Sent(state: ChatState, insightScheduled: bool, insightHistory: seq<MoodEntry>)

  /** The asynchronous half: the placeholder is overwritten with the answer or
      the error text; only an answer records a mood and counts a conversation. */
  function FinishSend(s: ChatState, text: string, outcome: Outcome<Reply>, now: string): Sent
    requires |s.messages| > 0
  {
    match outcome
    case Resolved(d) =>
      Sent(s.(messages := ReplaceLast(s.messages, Message(Ai, ShownReply(d))),
              mood := ShownMood(d),
              history := s.history + [MoodEntry(ShownMood(d), now, Take(text, 50))],
              conversations := s.conversations + 1,
              loading := false),
           (s.conversations + 1) % 5 == 0, s.history)
    case Rejected(msg) =>
      Sent(s.(messages := ReplaceLast(s.messages, Message(Ai, ErrorText(msg))), loading := false), false, s.history)
  }

  /** The promise `callGeminiAPI` returns, for a given answer of the model. */
  function CallModel(text: string, response: ApiResponse, parse: string -> Option<Reply>): Outcome<Reply> {
    match response
    case Answer(t) => Resolved(InterpretAnswer(text, t, parse))
    case HttpError(status, body) => Rejected(ApiErrorMessage(status, body))
    case NetworkFailure(m) => Rejected(m)
  }

  /** `sendMessage(text)` from start to finish, for a call that sees the
      current state. A call made while a reply is loading does nothing. */
  function SendMessage(s: ChatState, text: string, response: ApiResponse,
                       parse: string -> Option<Reply>, now: string): Sent
  {
    if !Accepts(s, text) then Sent(s, false, s.history)
    else FinishSend(BeginSend(s, text), text, CallModel(text, response, parse), now)
  }

  /** What the chat promises about one message: a refused message changes
      nothing; an accepted one grows the list by exactly two (the user's text,
      then one AI entry that took the placeholder's place), ends the loading
      state, and on success alone records the mood and counts the conversation,
      scheduling insights on every fifth. */
  lemma SendMessageShape(s: ChatState, text: string, response: ApiResponse,
                         parse: string -> Option<Reply>, now: string)
    ensures var r := SendMessage(s, text, response, parse, now);
            var s' := r.state;
            var n := |s.messages|;
            && (!Accepts(s, text) ==> s' == s && !r.insightScheduled)
            && (Accepts(s, text) ==>
                  && |s'.messages| == n + 2
                  && s'.messages[..n] == s.messages
                  && s'.messages[n] == Message(Me, text)
                  && s'.messages[n + 1].role == Ai
                  && !s'.loading
                  && match CallModel(text, response, parse)
                     case Resolved(d) =>
                       && s'.messages[n + 1].text == ShownReply(d)
                       && s'.history == s.history + [MoodEntry(ShownMood(d), now, Take(text, 50))]
                       && s'.mood == ShownMood(d)
                       && s'.conversations == s.conversations + 1
                       && (r.insightScheduled <==> s'.conversations % 5 == 0)
                       && r.insightHistory == s.history
                     case Rejected(msg) =>
                       && s'.messages[n + 1].text == ErrorText(msg)
                       && s'.history == s.history && s'.mood == s.mood
                       && s'.conversations == s.conversations
                       && !r.insightScheduled)
  {
    if Accepts(s, text) {
      var b := BeginSend(s, text);
      var n := |s.messages|;
      assert b.messages[n] == Message(Me, text);
      FinishShape(b, text, CallModel(text, response, parse), now);
      var s' := SendMessage(s, text, response, parse, now).state;
      assert s'.messages[..n + 1] == b.messages[..n + 1];
      assert s'.messages[..n] == b.messages[..n + 1][..n];
    }
  }

  /** The asynchronous half overwrites only the placeholder, always ends the
      loading state, and records a mood and a conversation only on success. */
  lemma FinishShape(b: ChatState, text: string, outcome: Outcome<Reply>, now: string)
    requires |b.messages| > 0
    ensures var r := FinishSend(b, text, outcome, now);
            var s' := r.state;
            var k := |b.messages| - 1;
            && |s'.messages| == |b.messages|
            && s'.messages[..k] == b.messages[..k]
            && s'.messages[k].role == Ai
            && !s'.loading
            && match outcome
               case Resolved(d) =>
                 && s'.messages[k].text == ShownReply(d)
                 && s'.history == b.history + [MoodEntry(ShownMood(d), now, Take(text, 50))]
                 && s'.mood == ShownMood(d)
                 && s'.conversations == b.conversations + 1
                 && (r.insightScheduled <==> s'.conversations % 5 == 0)
                 && r.insightHistory == b.history
               case Rejected(msg) =>
                 && s'.messages[k].text == ErrorText(msg)
                 && s'.history == b.history && s'.mood == b.mood
                 && s'.conversations == b.conversations
                 && !r.insightScheduled
  {
  }

  // ----------------------------------------------------------- insights

  /** `generateInsights`: nothing happens below three entries; otherwise the
      prompt is built from the moods of the last ten entries at most. */
  function InsightMoods(history: seq<MoodEntry>): (r: Option<seq<string>>)
    ensures r.None? <==> |history| < 3
    ensures r.Some? ==> |r.value| == (if |history| < 10 then |history| else 10)
    ensures r.Some? ==> forall i :: 0 <= i < |r.value| ==> r.value[i] == history[|history| - |r.value| + i].mood
  {
    if |history| < 3 then None
    else
      var tail := history[|history| - (if |history| < 10 then |history| else 10)..];
      Some(seq(|tail|, i requires 0 <= i < |tail| => tail[i].mood))
  }

  /** The recent moods joined with ", ", as the insight prompt lists them:
      none below three entries; otherwise from the oldest summarised mood to
      the newest entry's mood. */
  function MoodSummary(history: seq<MoodEntry>): (r: Option<string>)
    ensures r.None? <==> |history| < 3
    ensures r.Some? ==> var ms := InsightMoods(history).value;
                        StartsWith(r.value, ms[0]) && EndsWith(r.value, history[|history| - 1].mood)
  {
    match InsightMoods(history)
    case None => None
    case Some(ms) =>
      JoinEnds(ms, ", ");
      Some(Join(ms, ", "))
  }

  const InsightLead := "Based on these recent moods: "
  const InsightAsk := "\n    \nProvide a brief, supportive insight (1-2 sentences) about the emotional pattern and a helpful tip."

  /** The insight prompt: the fixed lead, the mood summary, the request. */
  function InsightPrompt(summary: string): (p: string)
    ensures StartsWith(p, InsightLead + summary) && EndsWith(p, InsightAsk)
  {
    var p := InsightLead + summary + InsightAsk;
    assert p[..|InsightLead + summary|] == InsightLead + summary;
    p
  }

  /** `generateInsights`: below three entries nothing happens; otherwise the
      model is asked about the mood summary (`ask` is the call, `None` when it
      fails or the answer is not OK) and its text, possibly empty, becomes the
      insights. */
  function GenerateInsights(history: seq<MoodEntry>, insights: string, ask: string -> Option<string>): (r: string)
    ensures |history| < 3 ==> r == insights
    ensures r != insights ==> && MoodSummary(history).Some?
                              && ask(InsightPrompt(MoodSummary(history).value)) == Some(r)
  {
    match MoodSummary(history)
    case None => insights
    case Some(summary) => ask(InsightPrompt(summary)).GetOr(insights)
  }

  /** The insights change only through a model answer to a prompt that lists
      the moods of the history's last ten entries at most. */
  lemma InsightChangesOnlyWithMoods(history: seq<MoodEntry>, insights: string, ask: string -> Option<string>)
    requires GenerateInsights(history, insights, ask) != insights
    ensures InsightMoods(history).Some?
    ensures ask(InsightPrompt(Join(InsightMoods(history).value, ", "))) == Some(GenerateInsights(history, insights, ask))
  {
  }

  /** History and count start together and grow together: a send keeps
      `|history| == conversations`, and the insight it schedules reads the
      history without the entry this send added, which always has 4, 9, 14,
      ... entries, so the three-entry guard never stops it and the newest
      mood is never in its summary. */
  lemma ScheduledInsightReadsOldHistory(s: ChatState, text: string, response: ApiResponse,
                                        parse: string -> Option<Reply>, now: string)
    requires |s.history| == s.conversations
    ensures var r := SendMessage(s, text, response, parse, now);
            && |r.state.history| == r.state.conversations
            && (r.insightScheduled ==>
                  && |r.state.history| >= 1
                  && r.insightHistory == r.state.history[..|r.state.history| - 1]
                  && |r.insightHistory| % 5 == 4
                  && InsightMoods(r.insightHistory).Some?)
  {
    SendMessageShape(s, text, response, parse, now);
    var r := SendMessage(s, text, response, parse, now);
    if r.insightScheduled {
      var d := CallModel(text, response, parse).value;
      assert r.state.history == s.history + [MoodEntry(ShownMood(d), now, Take(text, 50))];
      assert r.state.history[..|r.state.history| - 1] == s.history;
    }
  }

  // ------------------------------------------------------------ check-in

  /** The local clock as the check-in needs it: the calendar day and hour. */
  datatype Clock = Clock(day: string, hour: nat)

  datatype CheckIn = CheckIn(last: Option<Clock>, showing: bool)

  /** The check-in gate, evaluated on mount and every minute. */
  function CheckForCheckIn(c: CheckIn, now: Clock): (c': CheckIn)
    ensures c'.showing != c.showing <==>
              && (c.last.None? || c.last.value.day != now.day)
              && (now.hour == 9 || now.hour == 20)
              && !c.showing
    ensures c'.showing != c.showing ==> c'.showing && c'.last == Some(now)
    ensures c'.showing == c.showing ==> c' == c
  {
    if (c.last.None? || c.last.value.day != now.day) && (now.hour == 9 || now.hour == 20) && !c.showing then
      CheckIn(Some(now), true)
    else c
  }

  /** Both buttons of the prompt close it. */
  function Dismiss(c: CheckIn): CheckIn {
    c.(showing := false)
  }

  /** The prompt is raised at most once a day: once raised and dismissed, no
      later check on the same day raises it again. */
  lemma CheckInOncePerDay(c: CheckIn, now: Clock, later: Clock)
    requires CheckForCheckIn(c, now).showing && !c.showing
    requires later.day == now.day
    ensures !CheckForCheckIn(Dismiss(CheckForCheckIn(c, now)), later).showing
  {
  }
}

=== FILE: emotion_map.dfy ===
/** The aggregations behind the emotion-map panel
    (client/src/components/EmotionMap.jsx): mood intensity and colour tables,
    grouping the history by calendar day, the per-day average, the seven-day
    timeline, the distribution of known moods, the most common mood and the
    five most recent entries. The locale rendering of a time stamp as a day
    and the parsing of that day back into a date are parameters. */
module EmotionMap {
  import opened Options
  import opened Moods
  import opened Arith

  // ------------------------------------------------------------- tables

  /** `getMoodIntensity`: a score from 10 (sad) to 100 (happy); any other
      string scores like neutral. */
  function Intensity(mood: string): (r: nat)
    ensures 10 <= r <= 100
    ensures !IsKnown(mood) ==> r == 50
  {
    match Parse(mood)
    case Some(Happy) => 100
    case Some(Calm) => 70
    case Some(Neutral) => 50
    case Some(Anxious) => 30
    case Some(Stressed) => 20
    case Some(Sad) => 10
    case None => 50
  }

  /** The known moods, taken in table order, have strictly falling
      intensities, so no two known moods share a score. */
  lemma IntensityFallsInTableOrder()
    ensures forall j, k :: 0 <= j < k < |Known()| ==> Intensity(Name(Known()[j])) > Intensity(Name(Known()[k]))
  {
    forall m | m in Known() ensures Parse(Name(m)) == Some(m) {
      ParseName(m);
    }
  }

  const NeutralGrey := "#94a3b8"

  /** `getMoodColor`: one colour per known mood; anything else is grey. */
  function Color(mood: string): (c: string)
    ensures !IsKnown(mood) ==> c == NeutralGrey
  {
    match Parse(mood)
    case Some(Happy) => "#22c55e"
    case Some(Calm) => "#3b82f6"
    case Some(Neutral) => NeutralGrey
    case Some(Anxious) => "#fbbf24"
    case Some(Stressed) => "#f97316"
    case Some(Sad) => "#ef4444"
    case None => NeutralGrey
  }

  /** Unknown moods are drawn like neutral, and only neutral among the known
      moods is grey. */
  lemma GreyMeansNeutralOrUnknown(mood: string)
    ensures Color(mood) == NeutralGrey <==> !IsKnown(mood) || mood == "neutral"
  {
  }

  // ----------------------------------------------------------- averages

  /** The intensity of each entry of a group, in order. */
  function Scores(g: seq<MoodEntry>): seq<nat> {
    seq(|g|, i requires 0 <= i < |g| => Intensity(g[i].mood))
  }

  function Sum(s: seq<nat>): nat {
    if |s| == 0 then 0 else Sum(s[..|s| - 1]) + s[|s| - 1]
  }

  /** The smallest element of a non-empty list. */
  function Least(s: seq<nat>): (m: nat)
    requires |s| > 0
    ensures m in s
    ensures forall i :: 0 <= i < |s| ==> m <= s[i]
  {
    if |s| == 1 then s[0]
    else
      var m := Least(s[..|s| - 1]);
      if s[|s| - 1] < m then s[|s| - 1] else m
  }

  /** The largest element of a non-empty list. */
  function Greatest(s: seq<nat>): (m: nat)
    requires |s| > 0
    ensures m in s
    ensures forall i :: 0 <= i < |s| ==> s[i] <= m
  {
    if |s| == 1 then s[0]
    else
      var m := Greatest(s[..|s| - 1]);
      if s[|s| - 1] > m then s[|s| - 1] else m
  }

  /** A sum of `n` terms between `lo` and `hi` lies between `n * lo` and `n * hi`. */
  lemma {:induction false} SumBounds(s: seq<nat>, lo: nat, hi: nat)
    requires forall i :: 0 <= i < |s| ==> lo <= s[i] <= hi
    ensures lo * |s| <= Sum(s) <= hi * |s|
  {
    if |s| > 0 {
      var p := s[..|s| - 1];
      assert forall i :: 0 <= i < |p| ==> p[i] == s[i];
      SumBounds(p, lo, hi);
      assert lo * |s| == lo * |p| + lo;
      assert hi * |s| == hi * |p| + hi;
    }
  }

  /** `getAverageMood`: the rounded mean intensity of a day's entries. Groups
      are never empty (see `GroupsPartitionHistory`), so the quotient is defined. */
  function AverageMood(g: seq<MoodEntry>): (r: nat)
    requires |g| > 0
  {
    Round(Sum(Scores(g)), |g|)
  }

  /** The average is the mean intensity rounded to the nearest integer, halves
      up, and lies between the smallest and the largest intensity of the day,
      hence within 10..100. */
  lemma AverageMoodBounds(g: seq<MoodEntry>)
    requires |g| > 0
    ensures Least(Scores(g)) <= AverageMood(g) <= Greatest(Scores(g))
    ensures 2 * AverageMood(g) * |g| <= 2 * Sum(Scores(g)) + |g| < 2 * (AverageMood(g) + 1) * |g|
    ensures 10 <= AverageMood(g) <= 100
  {
    var sc := Scores(g);
    var lo, hi, t, n := Least(sc), Greatest(sc), Sum(sc), |g|;
    SumBounds(sc, lo, hi);
    RoundBetween(t, n, lo, hi);
    RoundIsNearest(t, n);
    assert sc[0] == Intensity(g[0].mood);
  }

  // ----------------------------------------------------------- grouping

  /** A day and the entries recorded on it, in insertion order. */
  type Groups = seq<(string, seq<MoodEntry>)>

  /** The position of the group with the given day, if any. */
  function FindDay(gs: Groups, day: string): (r: Option<nat>)
    ensures r.Some? ==> r.value < |gs| && gs[r.value].0 == day
    ensures r.None? ==> forall k :: 0 <= k < |gs| ==> gs[k].0 != day
  {
    if |gs| == 0 then None
    else if gs[|gs| - 1].0 == day then Some(|gs| - 1)
    else FindDay(gs[..|gs| - 1], day)
  }

  /** One step of `getMoodsByDate`: create the day's list if needed, then push. */
  function AddToDay(gs: Groups, day: string, e: MoodEntry): Groups {
    match FindDay(gs, day)
    case Some(k) => gs[k := (day, gs[k].1 + [e])]
    case None => gs + [(day, [e])]
  }

  /** `getMoodsByDate`, for a given rendering `dayOf` of time stamps as days. */
  function GroupByDay(h: seq<MoodEntry>, dayOf: string -> string): Groups {
    if |h| == 0 then []
    else AddToDay(GroupByDay(h[..|h| - 1], dayOf), dayOf(h[|h| - 1].timestamp), h[|h| - 1])
  }

  /** The entries of the history recorded on `day`, in order. */
  function OnDay(h: seq<MoodEntry>, dayOf: string -> string, day: string): seq<MoodEntry> {
    if |h| == 0 then []
    else OnDay(h[..|h| - 1], dayOf, day) + (if dayOf(h[|h| - 1].timestamp) == day then [h[|h| - 1]] else [])
  }

  /** The days of a grouping, in insertion order: `Object.keys(grouped)`. */
  function Days(gs: Groups): (ds: seq<string>)
    ensures |ds| == |gs|
    ensures forall k :: 0 <= k < |gs| ==> ds[k] == gs[k].0
  {
    seq(|gs|, k requires 0 <= k < |gs| => gs[k].0)
  }

  /** The grouping is a partition of the history by day: days are distinct,
      each group holds exactly that day's entries in their original order (so
      none is empty), and every entry's day has a group. */
  predicate IsDayPartition(gs: Groups, h: seq<MoodEntry>, dayOf: string -> string) {
    && (forall j, k :: 0 <= j < k < |gs| ==> gs[j].0 != gs[k].0)
    && (forall k :: 0 <= k < |gs| ==> gs[k].1 == OnDay(h, dayOf, gs[k].0) && gs[k].1 != [])
    && (forall i :: 0 <= i < |h| ==> dayOf(h[i].timestamp) in Days(gs))
  }

  /** A day no entry falls on collects nothing. */
  lemma {:induction false} OnDayOfAbsentDay(h: seq<MoodEntry>, dayOf: string -> string, day: string)
    requires forall i :: 0 <= i < |h| ==> dayOf(h[i].timestamp) != day
    ensures OnDay(h, dayOf, day) == []
  {
    if |h| > 0 {
      OnDayOfAbsentDay(h[..|h| - 1], dayOf, day);
    }
  }

  lemma OnDayAppend(p: seq<MoodEntry>, e: MoodEntry, dayOf: string -> string, day: string)
    ensures OnDay(p + [e], dayOf, day) == OnDay(p, dayOf, day) + (if dayOf(e.timestamp) == day then [e] else [])
  {
    assert (p + [e])[..|p|] == p;
  }

  /** Pushing onto the group of a day already present keeps the partition. */
  lemma AddToExistingDay(gs: Groups, p: seq<MoodEntry>, e: MoodEntry, dayOf: string -> string, k0: nat)
    requires IsDayPartition(gs, p, dayOf)
    requires k0 < |gs| && gs[k0].0 == dayOf(e.timestamp)
    ensures IsDayPartition(gs[k0 := (gs[k0].0, gs[k0].1 + [e])], p + [e], dayOf)
  {
    var d := dayOf(e.timestamp);
    var gs' := gs[k0 := (d, gs[k0].1 + [e])];
    var h := p + [e];
    forall k | 0 <= k < |gs'|
      ensures gs'[k].1 == OnDay(h, dayOf, gs'[k].0) && gs'[k].1 != []
    {
      OnDayAppend(p, e, dayOf, gs'[k].0);
    }
    forall i | 0 <= i < |h|
      ensures dayOf(h[i].timestamp) in Days(gs')
    {
      if i < |p| {
        var k :| 0 <= k < |gs| && Days(gs)[k] == dayOf(p[i].timestamp);
        assert Days(gs')[k] == Days(gs)[k];
      } else {
        assert Days(gs')[k0] == d;
      }
    }
  }

  /** Opening a group for a day not yet present keeps the partition. */
  lemma AddNewDay(gs: Groups, p: seq<MoodEntry>, e: MoodEntry, dayOf: string -> string)
    requires IsDayPartition(gs, p, dayOf)
    requires forall k :: 0 <= k < |gs| ==> gs[k].0 != dayOf(e.timestamp)
    ensures IsDayPartition(gs + [(dayOf(e.timestamp), [e])], p + [e], dayOf)
  {
    var d := dayOf(e.timestamp);
    var gs' := gs + [(d, [e])];
    var h := p + [e];
    forall k | 0 <= k < |gs'|
      ensures gs'[k].1 == OnDay(h, dayOf, gs'[k].0) && gs'[k].1 != []
    {
      OnDayAppend(p, e, dayOf, gs'[k].0);
      if k == |gs| {
        assert d !in Days(gs);
        OnDayOfAbsentDay(p, dayOf, d);
      }
    }
    forall i | 0 <= i < |h|
      ensures dayOf(h[i].timestamp) in Days(gs')
    {
      if i < |p| {
        var k :| 0 <= k < |gs| && Days(gs)[k] == dayOf(p[i].timestamp);
        assert Days(gs')[k] == Days(gs)[k];
      } else {
        assert Days(gs')[|gs|] == d;
      }
    }
  }

  /** Every entry lands in exactly one group, its own day's. */
  lemma {:induction false} GroupsPartitionHistory(h: seq<MoodEntry>, dayOf: string -> string)
    ensures IsDayPartition(GroupByDay(h, dayOf), h, dayOf)
  {
    if |h| > 0 {
      var p := h[..|h| - 1];
      var e := h[|h| - 1];
      var gs := GroupByDay(p, dayOf);
      GroupsPartitionHistory(p, dayOf);
      assert h == p + [e];
      match FindDay(gs, dayOf(e.timestamp))
      case Some(k0) => AddToExistingDay(gs, p, e, dayOf, k0);
      case None => AddNewDay(gs, p, e, dayOf);
    }
  }

  // ------------------------------------------------------------ timeline

  /** Stable insertion of a day into a list already ordered by date. */
  function Insert(sorted: seq<string>, x: string, dateValue: string -> int): (r: seq<string>)
    ensures multiset(r) == multiset(sorted) + multiset{x}
  {
    if |sorted| == 0 then [x]
    else if dateValue(sorted[|sorted| - 1]) <= dateValue(x) then sorted + [x]
    else
      var init := sorted[..|sorted| - 1];
      assert sorted == init + [sorted[|sorted| - 1]];
      Insert(init, x, dateValue) + [sorted[|sorted| - 1]]
  }

  /** The day list in ascending date order, as the stable `Array.prototype.sort`
      with comparator `new Date(a) - new Date(b)` leaves it. */
  function SortDays(days: seq<string>, dateValue: string -> int): (r: seq<string>)
    ensures multiset(r) == multiset(days)
  {
    if |days| == 0 then []
    else
      var init := days[..|days| - 1];
      assert days == init + [days[|days| - 1]];
      Insert(SortDays(init, dateValue), days[|days| - 1], dateValue)
  }

  predicate Ascending(s: seq<string>, dateValue: string -> int) {
    forall i, j :: 0 <= i < j < |s| ==> dateValue(s[i]) <= dateValue(s[j])
  }

  /** Inserting into an ascending list keeps it ascending. */
  lemma {:induction false} InsertAscending(sorted: seq<string>, x: string, dateValue: string -> int)
    requires Ascending(sorted, dateValue)
    ensures Ascending(Insert(sorted, x, dateValue), dateValue)
    ensures |Insert(sorted, x, dateValue)| == |sorted| + 1
  {
    if |sorted| > 0 && dateValue(sorted[|sorted| - 1]) > dateValue(x) {
      var init := sorted[..|sorted| - 1];
      var last := sorted[|sorted| - 1];
      assert Ascending(init, dateValue) by {
        forall i, j | 0 <= i < j < |init| ensures dateValue(init[i]) <= dateValue(init[j]) {
          assert init[i] == sorted[i] && init[j] == sorted[j];
        }
      }
      InsertAscending(init, x, dateValue);
      var r := Insert(init, x, dateValue);
      forall i | 0 <= i < |r| ensures dateValue(r[i]) <= dateValue(last) {
        assert r[i] in multiset(r);
        if r[i] != x {
          assert r[i] in multiset(init);
          var j :| 0 <= j < |init| && init[j] == r[i];
          assert sorted[j] == init[j];
        }
      }
      AppendAscending(r, last, dateValue);
    } else if |sorted| > 0 {
      AppendAscending(sorted, x, dateValue);
    }
  }

  /** An element no earlier than every element of an ascending list extends it. */
  lemma AppendAscending(s: seq<string>, x: string, dateValue: string -> int)
    requires Ascending(s, dateValue)
    requires forall i :: 0 <= i < |s| ==> dateValue(s[i]) <= dateValue(x)
    ensures Ascending(s + [x], dateValue)
  {
    var s' := s + [x];
    forall i, j | 0 <= i < j < |s'| ensures dateValue(s'[i]) <= dateValue(s'[j]) {
      assert s'[i] == s[i];
      if j < |s| { assert s'[j] == s[j]; }
    }
  }

  /** Sorting yields an ascending permutation of the days. */
  lemma {:induction false} SortDaysAscending(days: seq<string>, dateValue: string -> int)
    ensures Ascending(SortDays(days, dateValue), dateValue)
    ensures |SortDays(days, dateValue)| == |days|
  {
    if |days| > 0 {
      SortDaysAscending(days[..|days| - 1], dateValue);
      InsertAscending(SortDays(days[..|days| - 1], dateValue), days[|days| - 1], dateValue);
    }
  }

  /** `dates.slice(-7)`: the last seven days of the list, or all of them. */
  function LastDays(dates: seq<string>, n: nat): (r: seq<string>)
    ensures |r| == (if |dates| < n then |dates| else n)
    ensures r == dates[|dates| - |r|..]
  {
    dates[|dates| - (if |dates| < n then |dates| else n)..]
  }

  /** The timeline's days: the days of the grouping, in ascending date order,
      keeping the last seven. */
  function TimelineDays(h: seq<MoodEntry>, dayOf: string -> string, dateValue: string -> int): seq<string> {
    var gs := GroupByDay(h, dayOf);
    LastDays(SortDays(Days(gs), dateValue), 7)
  }

  /** At most seven days are shown, each a day of the history, in ascending
      order, and no day left out is later than a day shown. */
  lemma TimelineShowsLatestDays(h: seq<MoodEntry>, dayOf: string -> string, dateValue: string -> int)
    ensures var gs := GroupByDay(h, dayOf);
            var keys := Days(gs);
            var sorted := SortDays(keys, dateValue);
            var shown := TimelineDays(h, dayOf, dateValue);
            && |shown| <= 7
            && |shown| == (if |keys| < 7 then |keys| else 7)
            && Ascending(shown, dateValue)
            && (forall d :: d in shown ==> d in keys)
            && (forall i, d :: 0 <= i < |sorted| - |shown| && d in shown ==> dateValue(sorted[i]) <= dateValue(d))
  {
    var gs := GroupByDay(h, dayOf);
    var keys := Days(gs);
    var sorted := SortDays(keys, dateValue);
    SortDaysAscending(keys, dateValue);
    var shown := TimelineDays(h, dayOf, dateValue);
    assert shown == sorted[|sorted| - |shown|..];
    forall d | d in shown ensures d in keys {
      assert d in multiset(sorted);
    }
  }

  /** One bar of the timeline. */
  datatype DayBar = DayBar(day: string, height: nat, color: string, entries: nat)

  /** The bar of a day: its average height and the colour of the day's LAST
      entry (not its most frequent one). */
  function Bar(day: string, g: seq<MoodEntry>): (b: DayBar)
    requires |g| > 0
    ensures b.color == Color(g[|g| - 1].mood)
    ensures 10 <= b.height <= 100 && b.entries == |g|
  {
    AverageMoodBounds(g);
    DayBar(day, AverageMood(g), Color(g[|g| - 1].mood), |g|)
  }

  /** A day with two happy entries and then a sad one is drawn red. */
  lemma LastEntryColoursTheBar()
    ensures var g := [MoodEntry("happy", "t1", ""), MoodEntry("happy", "t2", ""), MoodEntry("sad", "t3", "")];
            Bar("d", g).color == Color("sad") != Color("happy")
  {
  }

  // -------------------------------------------------------- distribution

  /** The number of entries whose mood is exactly `m`'s name. */
  function Count(h: seq<MoodEntry>, m: Mood): nat {
    if |h| == 0 then 0
    else Count(h[..|h| - 1], m) + (if h[|h| - 1].mood == Name(m) then 1 else 0)
  }

  /** The position of a mood in the distribution's key order. */
  function Slot(m: Mood): (k: nat)
    ensures k < 6 && Known()[k] == m
  {
    match m
    case Happy => 0
    case Calm => 1
    case Neutral => 2
    case Anxious => 3
    case Stressed => 4
    case Sad => 5
  }

  /** `getMoodDistribution`: counts of the six known moods, in key order;
      entries with any other mood are not counted. */
  method Distribution(h: seq<MoodEntry>) returns (d: seq<nat>)
    ensures |d| == 6
    ensures forall k :: 0 <= k < 6 ==> d[k] == Count(h, Known()[k])
  {
    d := [0, 0, 0, 0, 0, 0];
    var i := 0;
    while i < |h|
      invariant 0 <= i <= |h|
      invariant |d| == 6
      invariant forall k :: 0 <= k < 6 ==> d[k] == Count(h[..i], Known()[k])
    {
      assert h[..i + 1][..i] == h[..i];
      var m := Parse(h[i].mood);
      if m.Some? {
        d := d[Slot(m.value) := d[Slot(m.value)] + 1];
      }
      i := i + 1;
    }
    assert h[..|h|] == h;
  }

  /** The number of entries with one of the six known moods. */
  function KnownCount(h: seq<MoodEntry>): nat {
    if |h| == 0 then 0
    else KnownCount(h[..|h| - 1]) + (if IsKnown(h[|h| - 1].mood) then 1 else 0)
  }

  lemma SumOfSix(d: seq<nat>)
    requires |d| == 6
    ensures Sum(d) == d[0] + d[1] + d[2] + d[3] + d[4] + d[5]
  {
    assert Sum(d) == Sum(d[..5]) + d[5];
    assert d[..5][..4] == d[..4];
    assert Sum(d[..5]) == Sum(d[..4]) + d[4];
    assert d[..4][..3] == d[..3];
    assert Sum(d[..4]) == Sum(d[..3]) + d[3];
    assert d[..3][..2] == d[..2];
    assert Sum(d[..3]) == Sum(d[..2]) + d[2];
    assert d[..2][..1] == d[..1];
    assert Sum(d[..2]) == Sum(d[..1]) + d[1];
    assert d[..1][..0] == [];
    assert Sum(d[..1]) == d[0];
  }

  /** The six counts add up to the number of entries with a known mood. */
  lemma {:induction false} CountsAddUp(h: seq<MoodEntry>)
    ensures Sum(seq(6, k requires 0 <= k < 6 => Count(h, Known()[k]))) == KnownCount(h)
  {
    var d := seq(6, k requires 0 <= k < 6 => Count(h, Known()[k]));
    SumOfSix(d);
    if |h| > 0 {
      var p := h[..|h| - 1];
      var x := h[|h| - 1].mood;
      CountsAddUp(p);
      var d' := seq(6, k requires 0 <= k < 6 => Count(p, Known()[k]));
      SumOfSix(d');
      assert d[0] == d'[0] + (if x == "happy" then 1 else 0);
      assert d[1] == d'[1] + (if x == "calm" then 1 else 0);
      assert d[2] == d'[2] + (if x == "neutral" then 1 else 0);
      assert d[3] == d'[3] + (if x == "anxious" then 1 else 0);
      assert d[4] == d'[4] + (if x == "stressed" then 1 else 0);
      assert d[5] == d'[5] + (if x == "sad" then 1 else 0);
    } else {
      assert d == [0, 0, 0, 0, 0, 0];
    }
  }

  /** At most every entry has a known mood, and all of them exactly when the
      count reaches the length. */
  lemma {:induction false} KnownCountAtMost(h: seq<MoodEntry>)
    ensures KnownCount(h) <= |h|
    ensures KnownCount(h) == |h| <==> forall i :: 0 <= i < |h| ==> IsKnown(h[i].mood)
  {
    if |h| > 0 {
      var p, x := h[..|h| - 1], h[|h| - 1];
      KnownCountAtMost(p);
      assert KnownCount(h) == KnownCount(p) + (if IsKnown(x.mood) then 1 else 0);
      if KnownCount(h) == |h| {
        forall i | 0 <= i < |h| ensures IsKnown(h[i].mood) {
          if i < |p| { assert h[i] == p[i]; }
        }
      }
      if forall i :: 0 <= i < |h| ==> IsKnown(h[i].mood) {
        assert IsKnown(x.mood);
        forall i | 0 <= i < |p| ensures IsKnown(p[i].mood) {
          assert p[i] == h[i];
        }
      }
    }
  }

  /** The distribution never counts more entries than the history holds, and
      counts them all exactly when every mood is a known one. */
  lemma DistributionTotal(h: seq<MoodEntry>, d: seq<nat>)
    requires |d| == 6 && forall k :: 0 <= k < 6 ==> d[k] == Count(h, Known()[k])
    ensures Sum(d) <= |h|
    ensures Sum(d) == |h| <==> forall i :: 0 <= i < |h| ==> IsKnown(h[i].mood)
  {
    assert d == seq(6, k requires 0 <= k < 6 => Count(h, Known()[k]));
    CountsAddUp(h);
    KnownCountAtMost(h);
  }

  /** "Most Common": the first slot with the highest count, which is what the
      stable descending sort of the distribution puts first. */
  method MostCommon(d: seq<nat>) returns (k: nat)
    requires |d| > 0
    ensures k < |d|
    ensures forall j :: 0 <= j < |d| ==> d[j] <= d[k]
    ensures forall j :: 0 <= j < k ==> d[j] < d[k]
  {
    k := 0;
    var i := 1;
    while i < |d|
      invariant 1 <= i <= |d|
      invariant k < i
      invariant forall j :: 0 <= j < i ==> d[j] <= d[k]
      invariant forall j :: 0 <= j < k ==> d[j] < d[k]
    {
      if d[i] > d[k] {
        k := i;
      }
      i := i + 1;
    }
  }

  /** The most common mood of a history, ties going to the earlier key in the
      order happy, calm, neutral, anxious, stressed, sad. */
  method MostCommonMood(h: seq<MoodEntry>) returns (m: Mood)
    ensures forall x: Mood :: Count(h, x) <= Count(h, m)
    ensures forall j :: 0 <= j < Slot(m) ==> Count(h, Known()[j]) < Count(h, m)
  {
    var d := Distribution(h);
    var k := MostCommon(d);
    m := Known()[k];
    assert Slot(m) == k by {
      assert Known()[Slot(m)] == m;
    }
    forall x: Mood ensures Count(h, x) <= Count(h, m) {
      assert d[Slot(x)] == Count(h, x);
    }
  }

  // ------------------------------------------------------ recent patterns

  /** `moodHistory.slice(-5).reverse()`: the five newest entries, newest first. */
  function Recent(h: seq<MoodEntry>): (r: seq<MoodEntry>)
    ensures |r| == (if |h| < 5 then |h| else 5)
    ensures forall i :: 0 <= i < |r| ==> r[i] == h[|h| - 1 - i]
  {
    var tail := h[|h| - (if |h| < 5 then |h| else 5)..];
    seq(|tail|, i requires 0 <= i < |tail| => tail[|tail| - 1 - i])
  }
}

=== FILE: header.dfy ===
/** The header badge (client/src/components/Header.jsx): the mood's emoji, its
    label and the CSS class that colours the badge. An empty mood reads as
    "neutral". The class lower-cases the mood but the emoji lookup does not. */
module Header {
  import opened Text
  import opened Moods

  /** `mood || 'neutral'` */
  function ShownMood(mood: string): (m: string)
    ensures m != ""
    ensures mood != "" ==> m == mood
    ensures mood == "" ==> m == "neutral"
  {
    if mood == "" then "neutral" else mood
  }

  /** `getMoodEmoji`: one face per known mood; anything else, neutral included,
      gets the neutral face. */
  function MoodEmoji(mood: string): (e: string)
    ensures !IsKnown(mood) ==> e == "😐"
  {
    match Parse(mood)
    case Some(Happy) => "😊"
    case Some(Calm) => "😌"
    case Some(Anxious) => "😰"
    case Some(Stressed) => "😫"
    case Some(Sad) => "😢"
    case Some(Neutral) => "😐"
    case None => "😐"
  }

  /** Distinct known moods other than neutral get distinct faces, and only
      neutral shares the fallback face. */
  lemma EmojiIdentifiesMood(a: Mood, b: Mood)
    ensures MoodEmoji(Name(a)) == MoodEmoji(Name(b)) <==> a == b
    ensures MoodEmoji(Name(a)) == "😐" <==> a == Neutral
  {
    ParseName(a);
    ParseName(b);
  }

  /** The badge's class: `mood-` followed by the lower-cased shown mood. */
  function MoodClass(mood: string): (c: string)
    ensures StartsWith(c, "mood-") && |c| == 5 + |ShownMood(mood)|
    ensures forall i :: 5 <= i < |c| ==> c[i] == LowerChar(ShownMood(mood)[i - 5])
    ensures forall i :: 5 <= i < |c| ==> !('A' <= c[i] <= 'Z')
  {
    var lowered := ToLower(ShownMood(mood));
    var c := "mood-" + lowered;
    assert forall i :: 5 <= i < |c| ==> c[i] == lowered[i - 5];
    c
  }

  /** The badge text: the emoji, a space and the shown mood. */
  function Badge(mood: string): (b: string)
    ensures EndsWith(b, " " + ShownMood(mood))
  {
    MoodEmoji(mood) + " " + ShownMood(mood)
  }

  /** The class and the emoji can disagree: a capitalised mood is coloured as
      that mood but shown with the neutral face. */
  lemma CapitalisedMoodLosesItsFace()
    ensures MoodClass("Happy") == "mood-happy"
    ensures MoodEmoji("Happy") == MoodEmoji("neutral") != MoodEmoji("happy")
  {
    assert ToLower("Happy") == "happy";
  }
}

=== FILE: input_box.dfy ===
/** The message composer (client/src/components/InputBox.jsx): a text buffer,
    a send action guarded by the buffer being non-blank and the composer being
    enabled, Enter without Shift as a shortcut, and the Send button's
    disabled state. */
module InputBox {
  import opened Options
  import opened Text

  /** What a send attempt does: the text handed to the chat, if any, and the
      buffer afterwards. */
  datatype Sending = Sending(sent: Option<string>, buffer: string)

  /** `handleSend`: non-blank text is sent as typed (surrounding white space
      included) and the buffer is cleared; otherwise nothing happens. */
  function HandleSend(buffer: string, disabled: bool): (r: Sending)
    ensures r.sent.Some? <==> !Blank(buffer) && !disabled
    ensures r.sent.Some? ==> r.sent.value == buffer && r.buffer == ""
    ensures r.sent.None? ==> r.buffer == buffer
  {
    if Trim(buffer) != [] && !disabled then Sending(Some(buffer), "") else Sending(None, buffer)
  }

  /** The outcome of a key press: whether the default action (a new line) is
      suppressed, and the send attempt it triggers, if any. */
  datatype KeyOutcome = KeyOutcome(preventDefault: bool, sending: Option<Sending>)

  /** `handleKeyDown`: Enter without Shift sends; Shift+Enter and every other
      key are left to the text area. */
  function HandleKeyDown(key: string, shift: bool, buffer: string, disabled: bool): (r: KeyOutcome)
    ensures r.preventDefault <==> key == "Enter" && !shift
    ensures r.sending.Some? <==> r.preventDefault
    ensures r.sending.Some? ==> r.sending.value == HandleSend(buffer, disabled)
  {
    if key == "Enter" && !shift then KeyOutcome(true, Some(HandleSend(buffer, disabled)))
    else KeyOutcome(false, None)
  }

  /** The Send button is disabled while the composer is or the buffer is blank. */
  function ButtonDisabled(buffer: string, disabled: bool): bool {
    disabled || Trim(buffer) == []
  }

  /** The button is enabled exactly when clicking it sends something, so an
      enabled button never does nothing. */
  lemma ButtonMatchesSend(buffer: string, disabled: bool)
    ensures !ButtonDisabled(buffer, disabled) <==> HandleSend(buffer, disabled).sent.Some?
  {
  }

  /** A second send right after a successful one does nothing: the buffer is
      then empty. */
  lemma NoDoubleSend(buffer: string, disabled: bool)
    requires HandleSend(buffer, disabled).sent.Some?
    ensures HandleSend(HandleSend(buffer, disabled).buffer, disabled).sent.None?
  {
  }
}

=== FILE: moods.dfy ===
/** The mood vocabulary shared by the chat, the header badge and the emotion
    map, and the mood-history record the chat appends to. Moods travel as
    strings (the language model may answer with any word); six of them are
    known to the tables. */
module Moods {
  import opened Options

  datatype Mood = Happy | Calm | Neutral | Anxious | Stressed | Sad

  /** The lower-case word used for a mood everywhere in the application. */
  function Name(m: Mood): string {
    match m
    case Happy => "happy"
    case Calm => "calm"
    case Neutral => "neutral"
    case Anxious => "anxious"
    case Stressed => "stressed"
    case Sad => "sad"
  }

  /** The known moods in the key order of the emotion map's tables. */
  function Known(): (ms: seq<Mood>)
    ensures |ms| == 6
    ensures forall j, k :: 0 <= j < k < |ms| ==> ms[j] != ms[k]
  {
    [Happy, Calm, Neutral, Anxious, Stressed, Sad]
  }

  /** Every mood is one of the known six. */
  lemma KnownIsComplete(m: Mood)
    ensures m in Known()
  {
    match m
    case Happy => assert Known()[0] == m;
    case Calm => assert Known()[1] == m;
    case Neutral => assert Known()[2] == m;
    case Anxious => assert Known()[3] == m;
    case Stressed => assert Known()[4] == m;
    case Sad => assert Known()[5] == m;
  }

  /** Looking a string up as a key of a table keyed by the six names. */
  function Parse(s: string): (r: Option<Mood>)
    ensures r.Some? ==> Name(r.value) == s
  {
    if s == "happy" then Some(Happy)
    else if s == "calm" then Some(Calm)
    else if s == "neutral" then Some(Neutral)
    else if s == "anxious" then Some(Anxious)
    else if s == "stressed" then Some(Stressed)
    else if s == "sad" then Some(Sad)
    else None
  }

  /** Names and lookup are inverse: every mood's name is found, as that mood. */
  lemma ParseName(m: Mood)
    ensures Parse(Name(m)) == Some(m)
  {
  }

  /** A string is a known mood exactly when it is one of the six names. */
  predicate IsKnown(s: string) {
    Parse(s).Some?
  }

  /** One entry of the mood history: the mood, the ISO time stamp and the
      first 50 characters of the user's message. */
  datatype MoodEntry = MoodEntry(mood: string, timestamp: string, message: string)
}

=== FILE: options.dfy ===
/** Optional values, used wherever the source has `undefined`/`null` or an
    operation that may produce nothing (a regex without a match, a failed parse). */
module Options {

  datatype Option<+T> = None | Some(value: T) {

    /** The wrapped value, or `default` when there is none (the `??`-style default). */
    function GetOr(default: T): T {
      match this
      case Some(v) => v
      case None => default
    }
  }

  /** A computation that either succeeds with a value or fails with an error message,
      the shape of a JavaScript promise that resolves or rejects. */
  datatype Outcome<+T> = Resolved(value: T) | Rejected(message: string)
}

=== FILE: server.dfy ===
/** The server's own logic (src/server.js): the CORS origin setting, the coach
    endpoint's input default and reply defaulting, and the defaults of the
    save endpoint. The language model is a parameter (its answer text), and
    `JSON.parse` is an oracle that yields the `mood` and `reply` fields of an
    object, or nothing when the text is not JSON or not an object; a field
    that is absent or falsy is the empty string. */
module Server {
  import opened Options
  import opened Text

  // ---------------------------------------------------------------- CORS

  /** `true` (any origin) or an explicit list. */
  datatype CorsOrigin = AllowAll | Origins(list: seq<string>)

  /** The `origin` option built from ALLOWED_ORIGIN: "*" allows every origin,
      anything else is a comma-separated list, split verbatim (no trimming). */
  function Cors(allowed: string): (o: CorsOrigin)
    ensures o.AllowAll? <==> allowed == "*"
    ensures o.Origins? ==> |o.list| >= 1 && forall k :: 0 <= k < |o.list| ==> ',' !in o.list[k]
  {
    if allowed == "*" then AllowAll else Origins(Split(allowed, ','))
  }

  /** The origin list loses nothing: joined back with commas it is the setting. */
  lemma CorsListRoundTrip(allowed: string)
    requires allowed != "*"
    ensures Join(Cors(allowed).list, ",") == allowed
  {
    JoinSplit(allowed, ',');
  }

  /** A list of comma-free origins written out with commas is read back as
      that list. */
  lemma CorsReadsWrittenList(origins: seq<string>)
    requires |origins| >= 1 && forall k :: 0 <= k < |origins| ==> ',' !in origins[k]
    requires Join(origins, ",") != "*"
    ensures Cors(Join(origins, ",")) == Origins(origins)
  {
    SplitJoin(origins, ',');
  }

  // --------------------------------------------------------------- coach

  const SampleCheckIn := "Sample mental health check-in."

  /** `text || 'Sample mental health check-in.'` */
  function CoachInput(text: string): (input: string)
    ensures input != ""
    ensures text != "" ==> input == text
    ensures text == "" ==> input == SampleCheckIn
  {
    if text == "" then SampleCheckIn else text
  }

  const PromptHead := "You are ClearMind, an empathetic mental health companion. Task:\n1) Infer the user's mood in one word (e.g., calm, anxious, stressed, sad, happy).\n2) Provide a brief, supportive response (max 120 words). Avoid clinical claims.\nReturn as JSON: { \"mood\": \"...\", \"reply\": \"...\" }.\n\nMessage: "

  /** The prompt sent to the model: the fixed instructions, then the input. */
  function CoachPrompt(input: string): (p: string)
    ensures StartsWith(p, PromptHead) && EndsWith(p, input) && |p| == |PromptHead| + |input|
  {
    var p := PromptHead + input;
    assert p[..|PromptHead|] == PromptHead;
    p
  }

  /** The `mood` and `reply` fields of a parsed object; "" when absent or falsy. */
  datatype Parsed = Parsed(mood: string, reply: string)

  datatype CoachReply = CoachReply(mood: string, reply: string)

  /** `/api/coach`: mood "neutral" and the raw text as reply, each replaced by
      the parsed field when that field is truthy. */
  function Coach(text: string, parse: string -> Option<Parsed>): (r: CoachReply)
    ensures r.mood != ""
    ensures parse(text).None? ==> r == CoachReply("neutral", text)
    ensures parse(text).Some? && parse(text).value.mood != "" ==> r.mood == parse(text).value.mood
    ensures parse(text).Some? && parse(text).value.mood == "" ==> r.mood == "neutral"
    ensures parse(text).Some? && parse(text).value.reply != "" ==> r.reply == parse(text).value.reply
    ensures parse(text).Some? && parse(text).value.reply == "" ==> r.reply == text
  {
    match parse(text)
    case None => CoachReply("neutral", text)
    case Some(p) =>
      CoachReply(if p.mood != "" then p.mood else "neutral", if p.reply != "" then p.reply else text)
  }

  /** The model stub of mock mode: a fixed lead and the first 80 characters of
      the prompt. */
  function MockAnswer(prompt: string): (a: string)
    ensures StartsWith(a, "MOCK Gemini response for prompt: ")
  {
    "MOCK Gemini response for prompt: " + Take(prompt, 80) + "..."
  }

  /** `JSON.parse` yields an object only from a text whose first non-blank
      character opens one. */
  predicate ObjectsStartWithBrace(parse: string -> Option<Parsed>, text: string) {
    parse(text).Some? ==> Trim(text) != [] && Trim(text)[0] == '{'
  }

  /** In mock mode the model's answer is not JSON, so the coach reply is the
      mock answer itself with the neutral mood: both fields are present and
      non-empty, whatever the user wrote. */
  lemma MockCoachReply(text: string, parse: string -> Option<Parsed>)
    requires ObjectsStartWithBrace(parse, MockAnswer(CoachPrompt(CoachInput(text))))
    ensures var a := MockAnswer(CoachPrompt(CoachInput(text)));
            Coach(a, parse) == CoachReply("neutral", a) && a != ""
  {
    var a := MockAnswer(CoachPrompt(CoachInput(text)));
    assert a[0] == 'M';
    TrimOfTrimmedStart(a);
  }

  /** Trimming text that starts with a visible character keeps that character first. */
  lemma TrimOfTrimmedStart(s: string)
    requires s != [] && !IsSpace(s[0])
    ensures Trim(s) != [] && Trim(s)[0] == s[0]
  {
    assert SkipSpace(s, 0) == 0;
  }

  // ---------------------------------------------------------------- save

  /** The row `/api/save` stores. */
  datatype SaveRow = SaveRow(mood: string, tokens: int, ts: string)

  /** Destructuring defaults apply only to absent fields: a missing mood is
      "neutral" and missing tokens are 0, while present values, even empty
      ones, are kept. */
  function SaveDefaults(mood: Option<string>, tokens: Option<int>, now: string): (r: SaveRow)
    ensures r.mood == mood.GetOr("neutral") && r.tokens == tokens.GetOr(0) && r.ts == now
    ensures mood.None? ==> r.mood == "neutral"
    ensures tokens.None? ==> r.tokens == 0
  {
    SaveRow(if mood.Some? then mood.value else "neutral", if tokens.Some? then tokens.value else 0, now)
  }

  /** Unlike the coach's mood, a present but empty mood is stored as empty. */
  lemma EmptyMoodIsKept()
    ensures SaveDefaults(Some(""), None, "t").mood == ""
    ensures SaveDefaults(None, None, "t") == SaveRow("neutral", 0, "t")
  {
  }
}

=== FILE: snowflake_export.dfy ===
/** The mood-history export endpoint (src/services/snowflakeExport.js):
    request validation, the choice between the mock and the real warehouse
    export, the connection settings and credential precedence, the mapping of
    history entries to table rows, and the replies. Environment variables are
    strings, the empty string standing for an unset variable; connecting and
    executing an insert are oracles supplied by the caller; the clock is two
    parameters (milliseconds since the epoch and its ISO rendering). */
module SnowflakeExport {
  import opened Options
  import opened Text
  import opened Moods

  /** The environment variables the export reads; "" means unset. */
  datatype SnowflakeEnv = SnowflakeEnv(
    mock: string, account: string, user: string,
    pat: string, password: string, privateKey: string,
    warehouse: string, database: string, schema: string)

  /** `s || fallback` on a string. */
  function Or(s: string, fallback: string): (r: string)
    ensures s != "" ==> r == s
    ensures s == "" ==> r == fallback
  {
    if s == "" then fallback else s
  }

  // ----------------------------------------------------------- settings

  /** The way the connection authenticates. */
  datatype Credential =
    | Token(token: string, authenticator: string)
    | Password(password: string)
    | PrivateKey(key: string)
    | NoCredential

  /** Credential precedence: a personal access token (as an OAuth token), else
      a password, else a private key. Exactly one kind is chosen. */
  function ChooseCredential(env: SnowflakeEnv): (c: Credential)
    ensures c.Token? <==> env.pat != ""
    ensures c.Token? ==> c.token == env.pat && c.authenticator == "OAUTH"
    ensures c.Password? <==> env.pat == "" && env.password != ""
    ensures c.Password? ==> c.password == env.password
    ensures c.PrivateKey? <==> env.pat == "" && env.password == "" && env.privateKey != ""
    ensures c.PrivateKey? ==> c.key == env.privateKey
  {
    if env.pat != "" then Token(env.pat, "OAUTH")
    else if env.password != "" then Password(env.password)
    else if env.privateKey != "" then PrivateKey(env.privateKey)
    else NoCredential
  }

  datatype ConnectionConfig = ConnectionConfig(
    account: string, username: string,
    warehouse: string, database: string, schema: string,
    credential: Credential)

  const DefaultWarehouse := "CLEARMIND_WH"
  const DefaultDatabase := "MENTAL_HEALTH_DB"
  const DefaultSchema := "PUBLIC"

  /** The connection settings: account and user as given, the location
      defaulted, and the chosen credential. */
  function Connection(env: SnowflakeEnv): (c: ConnectionConfig)
    ensures c.warehouse != "" && c.database != "" && c.schema != ""
    ensures env.warehouse != "" ==> c.warehouse == env.warehouse
    ensures env.warehouse == "" ==> c.warehouse == DefaultWarehouse
    ensures env.database != "" ==> c.database == env.database
    ensures env.database == "" ==> c.database == DefaultDatabase
    ensures env.schema != "" ==> c.schema == env.schema
    ensures env.schema == "" ==> c.schema == DefaultSchema
  {
    ConnectionConfig(env.account, env.user,
      Or(env.warehouse, DefaultWarehouse), Or(env.database, DefaultDatabase), Or(env.schema, DefaultSchema),
      ChooseCredential(env))
  }

  /** `useMock`: the mock export runs in mock mode or whenever the account,
      the user or every credential is missing. */
  predicate UseMock(env: SnowflakeEnv) {
    || env.mock == "true"
    || env.account == ""
    || env.user == ""
    || (env.pat == "" && env.password == "" && env.privateKey == "")
  }

  /** The real export only ever runs with an account, a user and a credential. */
  lemma RealModeIsConfigured(env: SnowflakeEnv)
    ensures !UseMock(env) <==>
              && env.mock != "true"
              && Connection(env).account != ""
              && Connection(env).username != ""
              && !Connection(env).credential.NoCredential?
  {
  }

  // -------------------------------------------------------------- records

  /** One row of the MOOD_HISTORY table. */
  datatype MoodRecord = MoodRecord(
    userId: string, mood: string, timestamp: string,
    messagePreview: Option<string>, exportedAt: string)

  /** The first 100 characters of the message, or null for an empty one. */
  function Preview(message: string): (p: Option<string>)
    ensures p.None? <==> message == ""
    ensures p.Some? ==> StartsWith(message, p.value)
    ensures p.Some? ==> |p.value| == (if |message| < 100 then |message| else 100)
  {
    if message == "" then None else Some(Take(message, 100))
  }

  /** A preview loses nothing of a message of at most 100 characters. */
  lemma ShortMessageKeptWhole(message: string)
    requires 0 < |message| <= 100
    ensures Preview(message) == Some(message)
  {
    assert message[..|message|] == message;
  }

  /** `moodRecords`: one row per entry, in order, carrying the envelope's user
      and export time. */
  function MoodRecords(userId: string, exportedAt: string, h: seq<MoodEntry>): (rs: seq<MoodRecord>)
    ensures |rs| == |h|
    ensures forall i :: 0 <= i < |h| ==>
              rs[i] == MoodRecord(userId, h[i].mood, h[i].timestamp, Preview(h[i].message), exportedAt)
  {
    seq(|h|, i requires 0 <= i < |h| => MoodRecord(userId, h[i].mood, h[i].timestamp, Preview(h[i].message), exportedAt))
  }

  /** The mapping is order-preserving: exporting two histories one after the
      other gives the rows of their concatenation. */
  lemma MoodRecordsAppend(userId: string, exportedAt: string, a: seq<MoodEntry>, b: seq<MoodEntry>)
    ensures MoodRecords(userId, exportedAt, a + b) == MoodRecords(userId, exportedAt, a) + MoodRecords(userId, exportedAt, b)
  {
  }

  /** Each row gives back its entry's mood and time stamp. */
  lemma RecordsKeepEntries(userId: string, exportedAt: string, h: seq<MoodEntry>)
    ensures var rs := MoodRecords(userId, exportedAt, h);
            forall i :: 0 <= i < |h| ==> MoodEntry(rs[i].mood, rs[i].timestamp, h[i].message) == h[i]
  {
  }

  // -------------------------------------------------------------- exports

  /** The body of the export request: the user, the history field, which may
      be missing or not an array, and the two time stamps. */
  datatype HistoryField = Missing | NotArray | Entries(entries: seq<MoodEntry>)

  datatype ExportRequest = ExportRequest(userId: string, moodHistory: HistoryField, timestamp: string, exportedAt: string)

  /** What an export reports. Absent location fields are `None`. */
  datatype ExportResult = ExportResult(
    success: bool, exportId: string, rowsInserted: nat, timestamp: string,
    warehouse: Option<string>, database: Option<string>, schema: Option<string>, table: string)

  const Table := "MOOD_HISTORY"

  /** `exportToSnowflakeMock`: success, one "row" per history entry (none
      when the history is missing or not an array), and the default location. */
  function MockExport(req: ExportRequest, nowMs: nat, nowIso: string): (r: ExportResult)
    ensures r.success && r.table == Table
    ensures r.rowsInserted == (if req.moodHistory.Entries? then |req.moodHistory.entries| else 0)
    ensures StartsWith(r.exportId, "mock-export-")
    ensures r.warehouse == Some(DefaultWarehouse) && r.database == Some(DefaultDatabase) && r.schema == Some(DefaultSchema)
  {
    var rows := if req.moodHistory.Entries? then |req.moodHistory.entries| else 0;
    ExportResult(true, "mock-export-" + NatToString(nowMs), rows, nowIso,
      Some(DefaultWarehouse), Some(DefaultDatabase), Some(DefaultSchema), Table)
  }

  /** The insert loop: rows are inserted one at a time, in order; the first
      failing insert ends the export with its error; otherwise the row counts
      the driver reports are added up. */
  function InsertAll(records: seq<MoodRecord>, execute: MoodRecord -> Outcome<nat>): (r: Outcome<nat>)
    ensures r.Resolved? <==> forall i :: 0 <= i < |records| ==> execute(records[i]).Resolved?
    ensures r.Rejected? ==> exists k :: 0 <= k < |records| && execute(records[k]) == Rejected(r.message)
                                      && forall j :: 0 <= j < k ==> execute(records[j]).Resolved?
  {
    if |records| == 0 then Resolved(0)
    else
      var init := records[..|records| - 1];
      var last := records[|records| - 1];
      match InsertAll(init, execute)
      case Rejected(m) => Rejected(m)
      case Resolved(n) =>
        match execute(last)
        case Rejected(m) => Rejected(m)
        case Resolved(k) => Resolved(n + k)
  }

  /** The rows reported by the driver for each record, added up. */
  function ReportedRows(records: seq<MoodRecord>, execute: MoodRecord -> Outcome<nat>): nat {
    if |records| == 0 then 0
    else
      var last := execute(records[|records| - 1]);
      ReportedRows(records[..|records| - 1], execute) + (if last.Resolved? then last.value else 0)
  }

  /** A successful insert loop reports the sum of the per-row counts. */
  lemma {:induction false} InsertAllCountsRows(records: seq<MoodRecord>, execute: MoodRecord -> Outcome<nat>)
    requires InsertAll(records, execute).Resolved?
    ensures InsertAll(records, execute).value == ReportedRows(records, execute)
  {
    if |records| > 0 {
      InsertAllCountsRows(records[..|records| - 1], execute);
    }
  }

  const FailurePrefix := "Snowflake export failed: "

  /** The result of a real export as the code reports it: the location fields
      are the raw environment variables, absent when unset. */
  function RealResultAsWritten(env: SnowflakeEnv, rows: nat, nowMs: nat, nowIso: string): (r: ExportResult)
    ensures r.success && r.rowsInserted == rows && r.table == Table
    ensures StartsWith(r.exportId, "snowflake-")
    ensures r.warehouse.Some? <==> env.warehouse != ""
    ensures r.database.Some? <==> env.database != ""
    ensures r.schema.Some? <==> env.schema != ""
    ensures r.warehouse.Some? ==> r.warehouse.value == env.warehouse
    ensures r.database.Some? ==> r.database.value == env.database
    ensures r.schema.Some? ==> r.schema.value == env.schema
  {
    ExportResult(true, "snowflake-" + NatToString(nowMs), rows, nowIso,
      if env.warehouse == "" then None else Some(env.warehouse),
      if env.database == "" then None else Some(env.database),
      if env.schema == "" then None else Some(env.schema),
      Table)
  }

  /** The corrected result of a real export, reporting where the rows went:
      the location the connection actually used. The code reports the raw
      variables instead (`RealResultAsWritten`), and `RealExport` follows it. */
  function RealResult(env: SnowflakeEnv, rows: nat, nowMs: nat, nowIso: string): (r: ExportResult)
    ensures r.success && r.rowsInserted == rows && r.table == Table
    ensures StartsWith(r.exportId, "snowflake-")
  {
    var c := Connection(env);
    ExportResult(true, "snowflake-" + NatToString(nowMs), rows, nowIso,
      Some(c.warehouse), Some(c.database), Some(c.schema), Table)
  }

  /** With the location variables unset, the rows go to the default warehouse
      but the reply as written reports no warehouse, database or schema. */
  lemma AsWrittenResultLosesLocation()
    ensures var env := SnowflakeEnv("false", "acct", "me", "", "secret", "", "", "", "");
            && !UseMock(env)
            && Connection(env).warehouse == DefaultWarehouse
            && RealResultAsWritten(env, 1, 0, "t").warehouse == None
  {
  }

  /** The corrected result always names the location the connection used. */
  lemma RealResultNamesConnection(env: SnowflakeEnv, rows: nat, nowMs: nat, nowIso: string)
    ensures var r := RealResult(env, rows, nowMs, nowIso);
            && r.warehouse == Some(Connection(env).warehouse)
            && r.database == Some(Connection(env).database)
            && r.schema == Some(Connection(env).schema)
    ensures env.warehouse != "" && env.database != "" && env.schema != "" ==>
              RealResult(env, rows, nowMs, nowIso) == RealResultAsWritten(env, rows, nowMs, nowIso)
  {
  }

  /** `exportToSnowflakeReal`: connect, insert every record, report. A failure
      to connect or to insert becomes an error prefixed with
      "Snowflake export failed: ". The reply is the one the code builds, with
      the raw location variables (see `RealResultAsWritten`). */
  function RealExport(env: SnowflakeEnv, userId: string, exportedAt: string, h: seq<MoodEntry>,
                      connect: ConnectionConfig -> Option<string>, execute: MoodRecord -> Outcome<nat>,
                      nowMs: nat, nowIso: string): (r: Outcome<ExportResult>)
    ensures connect(Connection(env)).Some? ==> r == Rejected(FailurePrefix + connect(Connection(env)).value)
    ensures r.Rejected? ==> StartsWith(r.message, FailurePrefix)
    ensures r.Resolved? ==> r.value.success && r.value.table == Table
    ensures r.Resolved? <==> connect(Connection(env)).None? && InsertAll(MoodRecords(userId, exportedAt, h), execute).Resolved?
    ensures r.Resolved? ==> r.value.rowsInserted == InsertAll(MoodRecords(userId, exportedAt, h), execute).value
    ensures r.Resolved? ==> (r.value.warehouse.Some? <==> env.warehouse != "")
    ensures r.Resolved? ==> (r.value.database.Some? <==> env.database != "")
    ensures r.Resolved? ==> (r.value.schema.Some? <==> env.schema != "")
  {
    match connect(Connection(env))
    case Some(err) => Rejected(FailurePrefix + err)
    case None =>
      match InsertAll(MoodRecords(userId, exportedAt, h), execute)
      case Rejected(err) => Rejected(FailurePrefix + err)
      case Resolved(rows) => Resolved(RealResultAsWritten(env, rows, nowMs, nowIso))
  }

  // -------------------------------------------------------------- handler

  /** The validated history: present only when the user is non-empty and the
      history field is an array (an empty array is accepted). */
  function Validate(req: ExportRequest): (h: Option<seq<MoodEntry>>)
    ensures h.Some? <==> req.userId != "" && req.moodHistory.Entries?
    ensures h.Some? ==> h.value == req.moodHistory.entries
  {
    if req.userId == "" then None
    else match req.moodHistory
      case Entries(es) => Some(es)
      case _ => None
  }

  /** The HTTP reply of the export endpoint. */
  datatype Reply = Ok(result: ExportResult) | Failure(status: nat, error: string, message: string)

  const InvalidReply := Failure(400, "Invalid export data", "userId and moodHistory array are required")

  /** `exportHandler` */
  function ExportHandler(env: SnowflakeEnv, req: ExportRequest,
                         connect: ConnectionConfig -> Option<string>, execute: MoodRecord -> Outcome<nat>,
                         nowMs: nat, nowIso: string): (r: Reply)
    ensures Validate(req).None? <==> r == InvalidReply
    ensures Validate(req).Some? && UseMock(env) ==>
              r.Ok? && r.result.rowsInserted == |req.moodHistory.entries|
    ensures Validate(req).Some? && !UseMock(env) && r.Failure? ==>
              r.status == 500 && r.error == "Export failed" && StartsWith(r.message, FailurePrefix)
  {
    match Validate(req)
    case None => InvalidReply
    case Some(h) =>
      if UseMock(env) then Ok(MockExport(req, nowMs, nowIso))
      else
        match RealExport(env, req.userId, req.exportedAt, h, connect, execute, nowMs, nowIso)
        case Resolved(result) => Ok(result)
        case Rejected(message) => Failure(500, "Export failed", message)
  }

  /** Validation happens before any export runs: an invalid request gets the
      same reply whatever the database would have done. */
  lemma InvalidRequestTouchesNothing(env: SnowflakeEnv, req: ExportRequest,
                                     connect: ConnectionConfig -> Option<string>, execute: MoodRecord -> Outcome<nat>,
                                     connect': ConnectionConfig -> Option<string>, execute': MoodRecord -> Outcome<nat>,
                                     nowMs: nat, nowIso: string)
    requires Validate(req).None?
    ensures ExportHandler(env, req, connect, execute, nowMs, nowIso) == ExportHandler(env, req, connect', execute', nowMs, nowIso)
  {
  }

  /** A real export that succeeds reports the rows the driver counted for the
      request's records. */
  lemma RealExportReportsRows(env: SnowflakeEnv, req: ExportRequest,
                              connect: ConnectionConfig -> Option<string>, execute: MoodRecord -> Outcome<nat>,
                              nowMs: nat, nowIso: string)
    requires Validate(req).Some? && !UseMock(env)
    requires ExportHandler(env, req, connect, execute, nowMs, nowIso).Ok?
    ensures ExportHandler(env, req, connect, execute, nowMs, nowIso).result.rowsInserted
            == ReportedRows(MoodRecords(req.userId, req.exportedAt, req.moodHistory.entries), execute)
  {
    InsertAllCountsRows(MoodRecords(req.userId, req.exportedAt, req.moodHistory.entries), execute);
  }
}

=== FILE: text.dfy ===
/** The handful of JavaScript string operations the application relies on:
    `trim`, ASCII `toLowerCase`, `includes`, `indexOf`, `substring(0, n)`,
    `split(',')`, `join`, and the decimal rendering of a number inside a
    template literal. Strings are sequences of Unicode scalar values. */
module Text {
  import opened Options

  /** The code points `String.prototype.trim` removes: the ECMAScript
      WhiteSpace and LineTerminator characters. */
  predicate IsSpace(c: char) {
    || c == ' ' || c == '\t' || c == '\n' || c == '\r'
    || c == '\U{000B}' || c == '\U{000C}' || c == '\U{00A0}' || c == '\U{1680}'
    || ('\U{2000}' <= c <= '\U{200A}')
    || c == '\U{2028}' || c == '\U{2029}' || c == '\U{202F}' || c == '\U{205F}'
    || c == '\U{3000}' || c == '\U{FEFF}'
  }

  /** Every character of `s` is white space; the empty string is blank. */
  predicate Blank(s: string) {
    forall i :: 0 <= i < |s| ==> IsSpace(s[i])
  }

  /** `k` occurs in `s` starting at index `i`. */
  predicate Occurs(s: string, k: string, i: int) {
    0 <= i && i + |k| <= |s| && s[i..i + |k|] == k
  }

  /** `s.includes(k)`, which is also what a one-word regular expression test decides. */
  predicate Contains(s: string, k: string) {
    exists i | 0 <= i <= |s| - |k| :: Occurs(s, k, i)
  }

  /** `s.startsWith(p)` */
  predicate StartsWith(s: string, p: string) {
    |p| <= |s| && s[..|p|] == p
  }

  /** `s.endsWith(p)` */
  predicate EndsWith(s: string, p: string) {
    |p| <= |s| && s[|s| - |p|..] == p
  }

  /** The first position at or after `k` that is not white space (or the end). */
  function SkipSpace(s: string, k: nat): (n: nat)
    requires k <= |s|
    ensures k <= n <= |s|
    ensures forall j :: k <= j < n ==> IsSpace(s[j])
    ensures n == |s| || !IsSpace(s[n])
    decreases |s| - k
  {
    if k < |s| && IsSpace(s[k]) then SkipSpace(s, k + 1) else k
  }

  /** Walking back from `k`, no further than `lo`, over white space: the end of
      the last visible character. */
  function SkipSpaceBack(s: string, lo: nat, k: nat): (n: nat)
    requires lo <= k <= |s|
    ensures lo <= n <= k
    ensures forall j :: n <= j < k ==> IsSpace(s[j])
    ensures n == lo || !IsSpace(s[n - 1])
    decreases k
  {
    if lo < k && IsSpace(s[k - 1]) then SkipSpaceBack(s, lo, k - 1) else k
  }

  /** `s.trim()`: the infix of `s` left after dropping blank runs at both ends.
      It is empty exactly when `s` is blank, which is how every `if (x.trim())`
      guard of the application decides. */
  function Trim(s: string): (r: string)
    ensures exists i :: Occurs(s, r, i) && Blank(s[..i]) && Blank(s[i + |r|..])
    ensures r == [] || (!IsSpace(r[0]) && !IsSpace(r[|r| - 1]))
    ensures r == [] <==> Blank(s)
  {
    var a := SkipSpace(s, 0);
    var e := SkipSpaceBack(s, a, |s|);
    TrimmedInfix(s, a, e);
    s[a..e]
  }

  /** The infix between the two scans sits between blank runs, has visible
      ends, and is empty only when all of `s` is blank. */
  lemma TrimmedInfix(s: string, a: nat, e: nat)
    requires a <= e <= |s|
    requires forall j :: 0 <= j < a ==> IsSpace(s[j])
    requires forall j :: e <= j < |s| ==> IsSpace(s[j])
    requires a == |s| || !IsSpace(s[a])
    requires e == a || !IsSpace(s[e - 1])
    ensures Occurs(s, s[a..e], a) && Blank(s[..a]) && Blank(s[a + |s[a..e]|..])
    ensures s[a..e] == [] || (!IsSpace(s[a..e][0]) && !IsSpace(s[a..e][e - a - 1]))
    ensures s[a..e] == [] <==> Blank(s)
  {
    assert Blank(s[..a]) by {
      forall i | 0 <= i < a ensures IsSpace(s[..a][i]) { assert s[..a][i] == s[i]; }
    }
    assert Blank(s[e..]) by {
      forall i | 0 <= i < |s| - e ensures IsSpace(s[e..][i]) { assert s[e..][i] == s[e + i]; }
    }
    if a < e {
      assert s[a..e][0] == s[a] && s[a..e][e - a - 1] == s[e - 1];
      assert !Blank(s) by { assert !IsSpace(s[a]); }
    } else {
      assert Blank(s) by {
        forall i | 0 <= i < |s| ensures IsSpace(s[i]) { }
      }
    }
  }

  /** Trimming text that already has no blank ends changes nothing. */
  lemma {:induction false} TrimOfTrimmed(s: string)
    requires s == [] || (!IsSpace(s[0]) && !IsSpace(s[|s| - 1]))
    ensures Trim(s) == s
  {
    if s != [] {
      assert SkipSpace(s, 0) == 0;
      assert SkipSpaceBack(s, 0, |s|) == |s|;
      assert s[0..|s|] == s;
    }
  }

  /** `trim` is idempotent. */
  lemma TrimIdempotent(s: string)
    ensures Trim(Trim(s)) == Trim(s)
  {
    TrimOfTrimmed(Trim(s));
  }

  /** ASCII upper-case letters are lowered; every other character is kept. */
  function LowerChar(c: char): char {
    if 'A' <= c <= 'Z' then (c as int + 32) as char else c
  }

  /** `s.toLowerCase()` restricted to the ASCII letters. */
  function ToLower(s: string): (r: string)
    ensures |r| == |s|
  {
    seq(|s|, i requires 0 <= i < |s| => LowerChar(s[i]))
  }

  /** Lowering keeps every character except the 26 capitals, which it maps to
      their small letters; lowering twice is lowering once. */
  lemma ToLowerFacts(s: string)
    ensures forall i :: 0 <= i < |s| ==> !('A' <= ToLower(s)[i] <= 'Z')
    ensures forall i :: 0 <= i < |s| && !('A' <= s[i] <= 'Z') ==> ToLower(s)[i] == s[i]
    ensures ToLower(ToLower(s)) == ToLower(s)
  {
  }

  /** `s.indexOf(c, from)`: the first position at or after `from` holding `c`. */
  function IndexOf(s: string, c: char, from: nat): (r: Option<nat>)
    ensures r.Some? ==> from <= r.value < |s| && s[r.value] == c
    ensures r.Some? ==> forall j :: from <= j < r.value ==> s[j] != c
    ensures r.None? ==> forall j :: from <= j < |s| ==> s[j] != c
    decreases |s| - from
  {
    if from >= |s| then None
    else if s[from] == c then Some(from)
    else IndexOf(s, c, from + 1)
  }

  /** `s.substring(0, n)`: the first `n` characters, or all of `s` when shorter. */
  function Take(s: string, n: nat): (r: string)
    ensures |r| == (if n < |s| then n else |s|)
    ensures StartsWith(s, r)
  {
    s[..if n < |s| then n else |s|]
  }

  /** `s.split(sep)` for a one-character separator: the maximal separator-free
      pieces, in order; there is always at least one. */
  function Split(s: string, sep: char): (parts: seq<string>)
    ensures |parts| >= 1
    ensures forall k :: 0 <= k < |parts| ==> sep !in parts[k]
    decreases |s|
  {
    match IndexOf(s, sep, 0)
    case None => [s]
    case Some(i) =>
      assert sep !in s[..i] by {
        forall j | 0 <= j < i ensures s[..i][j] != sep { }
      }
      [s[..i]] + Split(s[i + 1..], sep)
  }

  /** `parts.join(sep)` */
  function Join(parts: seq<string>, sep: string): string {
    if |parts| == 0 then ""
    else if |parts| == 1 then parts[0]
    else parts[0] + sep + Join(parts[1..], sep)
  }

  /** A join of at least one piece starts with the first and ends with the last. */
  lemma {:induction false} JoinEnds(parts: seq<string>, sep: string)
    requires |parts| >= 1
    ensures StartsWith(Join(parts, sep), parts[0])
    ensures EndsWith(Join(parts, sep), parts[|parts| - 1])
    decreases |parts|
  {
    if |parts| > 1 {
      var j := Join(parts, sep);
      var rest := Join(parts[1..], sep);
      JoinEnds(parts[1..], sep);
      assert j == parts[0] + sep + rest;
      assert j[..|parts[0]|] == parts[0];
      assert j[|j| - |rest|..] == rest;
      assert j[|j| - |parts[|parts| - 1]|..] == rest[|rest| - |parts[|parts| - 1]|..];
    }
  }

  /** Joining a piece in front of at least one other puts a separator between. */
  lemma JoinCons(p: string, parts: seq<string>, sep: string)
    requires |parts| >= 1
    ensures Join([p] + parts, sep) == p + sep + Join(parts, sep)
  {
    assert ([p] + parts)[1..] == parts;
  }

  /** Splitting at the first separator: the piece before it, then the split
      of the rest. */
  lemma SplitAt(s: string, sep: char, i: nat)
    requires IndexOf(s, sep, 0) == Some(i)
    ensures Split(s, sep) == [s[..i]] + Split(s[i + 1..], sep)
    ensures s == s[..i] + [sep] + s[i + 1..]
  {
  }

  /** Splitting and joining back with the same separator reproduces the text. */
  lemma {:induction false} JoinSplit(s: string, sep: char)
    ensures Join(Split(s, sep), [sep]) == s
    decreases |s|
  {
    match IndexOf(s, sep, 0)
    case None =>
    case Some(i) =>
      var rest := s[i + 1..];
      assert Join(Split(rest, sep), [sep]) == rest by { JoinSplit(rest, sep); }
      assert Split(s, sep) == [s[..i]] + Split(rest, sep) && s == s[..i] + [sep] + rest by {
        SplitAt(s, sep, i);
      }
      JoinCons(s[..i], Split(rest, sep), [sep]);
  }

  /** Joining separator-free pieces and splitting again recovers the pieces. */
  lemma {:induction false} SplitJoin(parts: seq<string>, sep: char)
    requires |parts| >= 1
    requires forall k :: 0 <= k < |parts| ==> sep !in parts[k]
    ensures Split(Join(parts, [sep]), sep) == parts
  {
    var p := parts[0];
    if |parts| == 1 {
      assert IndexOf(p, sep, 0) == None;
    } else {
      var rest := Join(parts[1..], [sep]);
      var s := p + [sep] + rest;
      assert s[|p|] == sep;
      assert forall j :: 0 <= j < |p| ==> s[j] == p[j];
      assert IndexOf(s, sep, 0) == Some(|p|);
      assert s[..|p|] == p;
      assert s[|p| + 1..] == rest;
      SplitJoin(parts[1..], sep);
    }
  }

  /** The digit character for `d < 10`. */
  function Digit(d: nat): char
    requires d < 10
  {
    ('0' as int + d) as char
  }

  /** The decimal rendering of a non-negative integer, as `${n}` produces it. */
  function NatToString(n: nat): (r: string)
    ensures |r| >= 1
    ensures forall i :: 0 <= i < |r| ==> '0' <= r[i] <= '9'
    ensures n > 0 ==> r[0] != '0'
  {
    if n < 10 then [Digit(n)] else NatToString(n / 10) + [Digit(n % 10)]
  }

  /** The number a string of decimal digits denotes. */
  function DecimalValue(s: string): nat
    requires forall i :: 0 <= i < |s| ==> '0' <= s[i] <= '9'
  {
    if |s| == 0 then 0
    else 10 * DecimalValue(s[..|s| - 1]) + (s[|s| - 1] as int - '0' as int)
  }

  /** Reading the rendering back gives the number: the rendering loses nothing. */
  lemma {:induction false} NatToStringRoundTrip(n: nat)
    ensures DecimalValue(NatToString(n)) == n
  {
    var r := NatToString(n);
    if n >= 10 {
      NatToStringRoundTrip(n / 10);
      assert r[..|r| - 1] == NatToString(n / 10);
    }
  }
}

=== FILE: therapy.dfy ===
/** The guided "therapy mode" dialogue (client/src/components/TherapyMode.jsx):
    four prompts answered in turn, each non-blank answer forwarded to the chat
    with its question, a closing message after the fourth, and a breathing
    caption that cycles through the four phase names. The one- and two-second
    delays before the next step and before closing are collapsed into the
    response itself. */
module Therapy {
  import opened Options
  import opened Text
  import opened Breathing

  // ------------------------------------------------------ breathing caption

  /** The caption cycle's successor on phase names: the four names in turn,
      and any other string back to "inhale". Unlike the breathing panel's
      sequencer it never skips a hold. */
  function NextCaption(prev: string): (next: string)
    ensures next in {"inhale", "hold-in", "exhale", "hold-out"}
  {
    if prev == "inhale" then "hold-in"
    else if prev == "hold-in" then "exhale"
    else if prev == "exhale" then "hold-out"
    else "inhale"
  }

  /** The caption after `n` ticks of the interval, starting from "inhale". */
  function CaptionAfter(n: nat): string {
    if n == 0 then "inhale" else NextCaption(CaptionAfter(n - 1))
  }

  /** On the phase names the caption successor is the breathing sequencer's
      successor for any exercise whose two holds are both positive. */
  lemma CaptionFollowsSequencer(t: Timing, p: Phase)
    requires t.holdIn > 0 && t.holdOut > 0
    ensures NextCaption(PhaseName(p)) == PhaseName(Next(t, p))
  {
  }

  /** Four ticks bring every phase name back to itself, and every other string
      joins the cycle at "inhale". */
  lemma CaptionCycle(s: string)
    ensures s in {"inhale", "hold-in", "exhale", "hold-out"} ==>
              NextCaption(NextCaption(NextCaption(NextCaption(s)))) == s
    ensures s !in {"inhale", "hold-in", "exhale", "hold-out"} ==> NextCaption(s) == "inhale"
  {
  }

  /** The text shown for a caption, if the caption is one of the table's keys. */
  function CaptionText(phase: string): (r: Option<string>)
    ensures r.Some? <==> phase in {"inhale", "hold-in", "exhale", "hold-out"}
  {
    if phase == "inhale" then Some("Breathe in slowly... 🌊")
    else if phase == "hold-in" then Some("Hold gently... ⏸️")
    else if phase == "exhale" then Some("Breathe out slowly... 💨")
    else if phase == "hold-out" then Some("Rest... ✨")
    else None
  }

  /** The caption is the phase `n mod 4` of the cycle, so it always has a text. */
  lemma {:induction false} CaptionIsPeriodic(n: nat)
    ensures CaptionAfter(n) == ["inhale", "hold-in", "exhale", "hold-out"][n % 4]
    ensures CaptionText(CaptionAfter(n)).Some?
  {
    if n > 0 {
      CaptionIsPeriodic(n - 1);
    }
  }

  /** Whether the panel is open when the component mounts. The app mounts it
      once, with its `showTherapy` flag still at its initial `false`. */
  const OpenAtMount := false

  /** The caption after `n` interval ticks as the component is written: the
      interval is started by a state initialiser, which runs only at mount, so
      it exists only if the panel was open then; otherwise the caption keeps
      its initial value. */
  function CaptionAsWritten(openAtMount: bool, n: nat): (c: string)
    ensures !openAtMount ==> c == "inhale"
    ensures openAtMount ==> c == CaptionAfter(n)
  {
    if openAtMount then CaptionAfter(n) else "inhale"
  }

  /** In the app the caption never moves: it is "Breathe in slowly..." for
      good, and differs from the intended cycle on three ticks out of four. */
  lemma AsWrittenCaptionIsConstant(n: nat)
    ensures CaptionText(CaptionAsWritten(OpenAtMount, n)) == Some("Breathe in slowly... 🌊")
    ensures n % 4 != 0 ==> CaptionAsWritten(OpenAtMount, n) != CaptionAfter(n)
  {
    CaptionIsPeriodic(n);
  }

  // --------------------------------------------------------------- dialogue

  datatype Prompt = Prompt(question: string, placeholder: string)

  /** The four guided prompts, in order. */
  function Prompts(): (ps: seq<Prompt>)
    ensures |ps| == 4
  {
    [ Prompt("Let's start gently. Take a deep breath. What brought you here today?", "I've been feeling..."),
      Prompt("That sounds important. Can you tell me more about when these feelings started?", "It began when..."),
      Prompt("I hear you. What would help you feel even a little bit better right now?", "I think it would help if..."),
      Prompt("That's a good insight. What's one small step you could take today toward that?", "I could try...") ]
  }

  const TherapyTag := "[Therapy Mode] "
  const UserTag := "\n\nUser: "
  const Farewell := "[Therapy Mode Complete] Thank you for sharing. Let's continue our conversation."

  /** The dialogue: the prompt on screen, the answers given so far, and
      whether the panel is open. */
  datatype Dialogue = Dialogue(step: nat, responses: seq<string>, open: bool)

  function Opened(): Dialogue {
    Dialogue(0, [], true)
  }

  /** Closing the panel (its button, the overlay, or the end of the dialogue)
      only hides it: the prompt index and the answers are kept. */
  function Close(d: Dialogue): (r: Dialogue)
    ensures !r.open && r.step == d.step && r.responses == d.responses
  {
    d.(open := false)
  }

  /** Opening the panel again shows it with the state it had. */
  function Reopen(d: Dialogue): (r: Dialogue)
    ensures r.open && r.step == d.step && r.responses == d.responses
  {
    d.(open := true)
  }

  /** The dialogue runs over a list of prompts (the component's is `Prompts()`);
      the prompt index always names one of them. */
  predicate Valid(prompts: seq<Prompt>, d: Dialogue) {
    d.step < |prompts|
  }

  /** A chat message the dialogue sends: an answer under its question, or the
      closing message. */
  datatype Outgoing = Forward(question: string, answer: string) | Goodbye

  /** The text handed to `onSendMessage` for a message: a forwarded answer is
      tagged as therapy mode and ends with the user's own words. Whether the
      chat accepts it is up to the chat. */
  function Render(m: Outgoing): (s: string)
    ensures m.Forward? ==> |s| == |TherapyTag + m.question + UserTag| + |m.answer|
    ensures m.Forward? ==> StartsWith(s, TherapyTag + m.question + UserTag) && EndsWith(s, m.answer)
    ensures m.Goodbye? ==> s == Farewell
  {
    match m
    case Forward(q, a) =>
      var s := TherapyTag + q + UserTag + a;
      assert s[..|TherapyTag + q + UserTag|] == TherapyTag + q + UserTag;
      assert s[|s| - |a|..] == a;
      s
    case Goodbye => Farewell
  }

  /** What one answer produces: the new dialogue and the chat messages sent. */
  datatype Answered = Answered(dialogue: Dialogue, sent: seq<Outgoing>)

  /** `handleResponse`: a blank answer is ignored; otherwise the answer is
      recorded and handed on with its question, and the dialogue moves to the
      next prompt, or after the last one says goodbye and closes. The guard
      `response.trim()` is empty exactly when the answer is blank (see `Trim`),
      so it is written with `Blank`. */
  function HandleResponse(prompts: seq<Prompt>, d: Dialogue, text: string): (r: Answered)
    requires Valid(prompts, d)
    ensures Valid(prompts, r.dialogue)
    ensures Blank(text) ==> r == Answered(d, [])
    ensures !Blank(text) ==>
              && r.dialogue.responses == d.responses + [text]
              && |r.sent| >= 1
              && r.sent[0] == Forward(prompts[d.step].question, text)
    ensures !Blank(text) && d.step + 1 < |prompts| ==>
              r.dialogue.step == d.step + 1 && r.dialogue.open == d.open && |r.sent| == 1
    ensures !Blank(text) && d.step + 1 == |prompts| ==>
              r.dialogue.step == d.step && !r.dialogue.open && r.sent == r.sent[..1] + [Goodbye]
  {
    if Blank(text) then Answered(d, [])
    else
      var forwarded := Forward(prompts[d.step].question, text);
      var answered := d.(responses := d.responses + [text]);
      if d.step < |prompts| - 1 then Answered(answered.(step := d.step + 1), [forwarded])
      else Answered(answered.(open := false), [forwarded, Goodbye])
  }

  /** The answers given in order. */
  function Answer(prompts: seq<Prompt>, d: Dialogue, texts: seq<string>): (r: Answered)
    requires Valid(prompts, d)
    ensures Valid(prompts, r.dialogue)
    decreases |texts|
  {
    if |texts| == 0 then Answered(d, [])
    else
      var before := Answer(prompts, d, texts[..|texts| - 1]);
      var last := HandleResponse(prompts, before.dialogue, texts[|texts| - 1]);
      Answered(last.dialogue, before.sent + last.sent)
  }

  predicate NonBlank(texts: seq<string>) {
    forall i :: 0 <= i < |texts| ==> !Blank(texts[i])
  }

  /** A prefix of non-blank answers is non-blank, and so is the answer after it. */
  lemma NonBlankPrefix(texts: seq<string>, k: nat)
    requires NonBlank(texts) && k < |texts|
    ensures NonBlank(texts[..k]) && !Blank(texts[k])
  {
    forall i | 0 <= i < k ensures !Blank(texts[..k][i]) {
      assert texts[..k][i] == texts[i];
    }
  }

  /** One non-blank answer before the last prompt moves on by one prompt and
      sends one message. */
  lemma Advances(prompts: seq<Prompt>, d: Dialogue, text: string)
    requires Valid(prompts, d) && d.step + 1 < |prompts| && !Blank(text)
    ensures HandleResponse(prompts, d, text)
         == Answered(Dialogue(d.step + 1, d.responses + [text], d.open), [Forward(prompts[d.step].question, text)])
  {
  }

  /** While prompts remain, after k non-blank answers the k-th prompt is on
      screen, every answer is kept in order, and one message per answer has
      been sent. */
  lemma {:induction false} AnswersAdvance(prompts: seq<Prompt>, texts: seq<string>)
    requires |texts| < |prompts| && NonBlank(texts)
    ensures Answer(prompts, Opened(), texts).dialogue == Dialogue(|texts|, texts, true)
    ensures |Answer(prompts, Opened(), texts).sent| == |texts|
  {
    if |texts| > 0 {
      var init, last := texts[..|texts| - 1], texts[|texts| - 1];
      NonBlankPrefix(texts, |texts| - 1);
      AnswersAdvance(prompts, init);
      var a := Answer(prompts, Opened(), init);
      Advances(prompts, a.dialogue, last);
      assert init + [last] == texts;
    }
  }

  /** While prompts remain, the i-th message sent is the i-th answer under the
      i-th question. */
  lemma {:induction false} AnswersForwarded(prompts: seq<Prompt>, texts: seq<string>)
    requires |texts| < |prompts| && NonBlank(texts)
    ensures var sent := Answer(prompts, Opened(), texts).sent;
            |sent| == |texts| && forall i :: 0 <= i < |texts| ==> sent[i] == Forward(prompts[i].question, texts[i])
  {
    AnswersAdvance(prompts, texts);
    if |texts| > 0 {
      var init, last := texts[..|texts| - 1], texts[|texts| - 1];
      NonBlankPrefix(texts, |texts| - 1);
      AnswersForwarded(prompts, init);
      AnswersAdvance(prompts, init);
      var a := Answer(prompts, Opened(), init);
      Advances(prompts, a.dialogue, last);
      var sent := a.sent + [Forward(prompts[|init|].question, last)];
      assert Answer(prompts, Opened(), texts).sent == sent;
      forall i | 0 <= i < |texts| ensures sent[i] == Forward(prompts[i].question, texts[i]) {
        if i < |init| {
          assert sent[i] == a.sent[i] && texts[i] == init[i];
        }
      }
    }
  }

  /** A non-blank answer to the last prompt forwards it, says goodbye and
      closes, staying on that prompt. */
  lemma Closes(prompts: seq<Prompt>, d: Dialogue, text: string)
    requires Valid(prompts, d) && d.step + 1 == |prompts| && !Blank(text)
    ensures HandleResponse(prompts, d, text)
         == Answered(Dialogue(d.step, d.responses + [text], false), [Forward(prompts[d.step].question, text), Goodbye])
  {
  }

  /** The answer to the last prompt closes the dialogue: every answer is kept,
      one message per answer was sent, and the farewell comes last. */
  lemma LastAnswerCloses(prompts: seq<Prompt>, texts: seq<string>)
    requires |texts| == |prompts| >= 1 && NonBlank(texts)
    ensures var r := Answer(prompts, Opened(), texts);
            && r.dialogue == Dialogue(|prompts| - 1, texts, false)
            && |r.sent| == |prompts| + 1
            && r.sent[|prompts|] == Goodbye
  {
    var k := |texts| - 1;
    var init := texts[..k];
    NonBlankPrefix(texts, k);
    AnswersAdvance(prompts, init);
    var a := Answer(prompts, Opened(), init);
    Closes(prompts, a.dialogue, texts[k]);
    assert init + [texts[k]] == texts;
    var sent := a.sent + [Forward(prompts[k].question, texts[k]), Goodbye];
    assert Answer(prompts, Opened(), texts) == Answered(Dialogue(k, texts, false), sent);
  }

  /** With the component's four prompts, the fourth non-blank answer closes
      the dialogue after five messages, the last of them the farewell. */
  lemma FourthAnswerCloses(texts: seq<string>)
    requires |texts| == 4 && NonBlank(texts)
    ensures var r := Answer(Prompts(), Opened(), texts);
            && r.dialogue == Dialogue(3, texts, false)
            && |r.sent| == 5
            && r.sent[4] == Goodbye
  {
    LastAnswerCloses(Prompts(), texts);
  }

  /** The progress dots: the current prompt's dot is active and the earlier
      ones are completed. */
  function DotClass(i: nat, step: nat): (c: string)
    ensures c == "progress-dot active " <==> i == step
    ensures c == "progress-dot  completed" <==> i < step
  {
    "progress-dot " + (if i == step then "active" else "") + " " + (if i < step then "completed" else "")
  }

  /** Reopening after a completed dialogue does not start over: the panel is
      still on the last prompt, so a single non-blank answer is forwarded under
      the last question, followed by the farewell, and the panel closes again. */
  lemma ReopenedDialogueEndsAtOnce(prompts: seq<Prompt>, texts: seq<string>, text: string)
    requires |texts| == |prompts| >= 1 && NonBlank(texts) && !Blank(text)
    ensures var d := Reopen(Answer(prompts, Opened(), texts).dialogue);
            && Valid(prompts, d) && d.step == |prompts| - 1
            && HandleResponse(prompts, d, text)
               == Answered(Dialogue(|prompts| - 1, texts + [text], false),
                           [Forward(prompts[|prompts| - 1].question, text), Goodbye])
  {
    LastAnswerCloses(prompts, texts);
    var d := Reopen(Answer(prompts, Opened(), texts).dialogue);
    Closes(prompts, d, text);
  }
}
